=== FILE: README.md ===
# CSV chunking and field splitting, modelled in Dafny

This project models the core of a small set of Python command-line tools
that split CSV files:

- **COTI** ("CSV Terminal Interface"). `COTI.py` validates the
  command-line arguments with the helpers of `Validator.py`. It reads the
  source file through a `CSVOps` object, reports the number of data
  records, and for the `chunk` operation writes the file out in numbered
  pieces of 5000 records. Each piece repeats the header.
- **FileSplitter2_modifiy_bytes.py**, a stand-alone splitter. The row
  limit comes from `-chunksize` and falls back to 10000.
- **FileSplitter2-withETL.py**, the same splitter with no fallback for the
  row limit. It also rewrites the document number (field 3) of every data
  row as `document-installment` (field 15).
- **Field_2_Row_Splitter.py**, which turns a list held in one field into
  one output row per list item.

The three chunking scripts (`COTI`, `modifiy_bytes` and `withETL`) share
one piece of logic, the chunking loop; the field splitter opens piece 1 and
never moves on. Piece 1 is opened
before the first data row is written. Row `i` (counting from 0) opens the next piece when
`i + 1 > limit`, and the limit then becomes `chunk_size * piece`. Every
piece is named by formatting `name(%s)extension` with its number.
`Chunking` models this loop as a state machine. It proves the following:

- the pieces are numbered 1, 2, …;
- each piece carries the header;
- all pieces but the last hold exactly `chunk_size` rows;
- row `i` lands in piece `i / c + 1`;
- concatenating the pieces gives back the data. This also holds for a
  chunk size of zero or less, where every row gets a piece of its own and
  piece 1 stays empty.

`Writing` turns pieces into named files. `Paths` models the path slicing
and Python's `%` formatting of the name template.

Behaviour the code has and the model keeps as written:

- `validateArgs` checks `-chunksize` only when the operation is spelled
  exactly `chunk`, and then replaces it by 5000 (`Coti.ChunkSizeIgnored`).
- The operation check lower-cases the argument, but the dispatch does not.
  `CHUNK` is therefore accepted and does nothing
  (`Coti.OtherSpellingsWriteNothing`).
- The field splitter uses the field delimiter only to decide *whether* to
  split a row. The field is then cut at whitespace, so `a;b` with `;` is
  written once, unchanged (`FieldSplitter.DelimiterDoesNotCut`).
- A file name shorter than four characters makes the name and extension
  cuts overlap (`Paths.ShortFileNameOverlaps`).

Inputs the programs obtain by I/O are parameters:

- `records` is the list of rows the CSV reader yields for the source file.
  An empty list stands for an empty file.
- Each command line is a datatype of optional texts, with `None` for an
  argument that was not given.

Every way a run can stop is an `Err` carrying a `Fault`:

- `quit()` after an error message;
- an uncaught `StopIteration`, `IndexError`, `ValueError`, `TypeError`,
  `NameError`, or `AttributeError` (slicing the `None` path of an absent
  `-file`);
- a bad `%` template.

## Model

| member | source | states |
|---|---|---|
| Text.ContainsIffOccurs | Prototypes/Field_2_Row_Splitter.py:47 | `sub in s` holds exactly when `sub` occurs at some index of `s` (so the empty delimiter is in every field) |
| Text.Contains | Prototypes/Field_2_Row_Splitter.py:47 | the empty text is in every text and no text is in a shorter one; its partner `Text.ContainsIffOccurs` states the exact meaning |
| Text.Words | Prototypes/Field_2_Row_Splitter.py:53 | `split()` with no separator yields only non-empty, whitespace-free tokens |
| Text.SingleWord | Prototypes/Field_2_Row_Splitter.py:53 | a whitespace-free, non-empty field splits into itself alone |
| Text.BlankHasNoWords | Prototypes/Field_2_Row_Splitter.py:53-54 | a field of whitespace only yields no token, so the loop writes nothing |
| Text.WordsOfJoin | Prototypes/Field_2_Row_Splitter.py:53 | round trip: tokens joined by single spaces split back into the same tokens |
| Text.WordsKeepText | Prototypes/Field_2_Row_Splitter.py:53 | the tokens, concatenated, are exactly the non-whitespace characters of the field, in order |
| Text.Lower | COTI/COTI.py:68 | `Text.Lower` models `str.lower()` on `A`-`Z` and the Kelvin sign only: it keeps the length, moves `A`-`Z` to `a`-`z` and leaves every character other than `A`-`Z` and the Kelvin sign unchanged; its partner `Text.LowerToWord` says which texts lower to a given word |
| Text.LowerToWord | COTI/COTI.py:68 | a text lowers to a lower-case ASCII word exactly when it spells it letter by letter in either case (with the Kelvin sign for `k`) |
| Integers.Decimal | COTI/CSVOps.py:92 | `str(n)`; no contract of its own, its partners are `Integers.ParseDecimal` (`int()` reads it back) and `Integers.DecimalInjective` |
| Integers.ParseInt | COTI/Validator.py:27 | `int()` on a text: the literal grammar (`Integers.ReadInt`) plus the limit of 4300 digits; no contract of its own, its partners are `Integers.ParseDecimal`, `Integers.LongDigitsRejected`, `Integers.ParseIntAccepts` and `Integers.ParseIntRejects` |
| Integers.ParseDecimalText | COTI/Validator.py:27 | any text equal to `str(n)` parses back to `n` when `n` has at most 4300 digits, and raises otherwise |
| Integers.NatDigits | COTI/CSVOps.py:92 | `str(n)` of a natural number is a non-empty run of digits with no leading zero |
| Integers.DigitsValueOfNatDigits | COTI/Validator.py:27 | the digits `str(n)` produces denote `n` |
| Integers.ReadDecimal | COTI/Validator.py:27 | the literal grammar of `int()` reads `str(n)` back to `n` for every integer, negatives included |
| Integers.DecimalDigitCount | COTI/Validator.py:27 | the digits `int()` counts in `str(n)` are the digits of `n`; the minus sign does not count |
| Integers.ParseDecimal | COTI/Validator.py:27 | round trip: `int(str(n)) == n` exactly when `n` has at most 4300 digits, negatives included; beyond that `int()` raises |
| Integers.LongDigitsRejected | COTI/Validator.py:27 | `int()` raises on a run of more than 4300 digits, leading zeros included |
| Integers.DecimalInjective | COTI/CSVOps.py:92 | distinct piece numbers format to distinct texts |
| Integers.ParseIntRejects | COTI/Validator.py:26-30 | `int()` raises on the empty or blank text, a bare sign, letters and misplaced underscores |
| Integers.ParseIntAccepts | COTI/Validator.py:26-30 | `int()` accepts surrounding whitespace, a plus sign, leading zeros and digit-group underscores |
| Validator.BlankOrNone | COTI/Validator.py:8-17 | `stringBlankOrNone` holds exactly for an absent argument, the empty text and the text `None` |
| Validator.IsInt | COTI/Validator.py:26-30 | `isInt` fails on an absent argument and on the empty text |
| Validator.IsIntOfDecimal | COTI/Validator.py:26-30 | a decimal integer text passes `isInt` exactly when it has at most 4300 digits |
| Validator.IsIntExamples | COTI/Validator.py:26-30 | `5000`, `-3`, `0` pass; the empty text, an absent argument and `abc` fail |
| Records.Load | COTI/CSVOps.py:55-63 | reading succeeds exactly when there is a record; the header followed by the data is the record list; `hasData` exactly when a data row was read |
| Records.LengthExcludesHeader | COTI/CSVOps.py:72-77 | `getCSVLength` is the record count less the header |
| Paths.LastIndexOf | COTI/CSVOps.py:47 | `rfind` gives the last index holding the character, or -1 when there is none |
| Paths.SplitSourcePath | COTI/CSVOps.py:47-49 | the three cuts of `readFile`; no contract of its own, its partners are the four `Paths.SplitSourcePath…` lemmas below |
| Paths.SplitSourcePathCuts | COTI/CSVOps.py:47-49 | directory, name and extension are the three plain sub-sequences between the cuts |
| Paths.SplitSourcePathParts | COTI/CSVOps.py:47-49 | the directory ends at the last backslash, the name holds no backslash, the extension is the last four characters |
| Paths.SplitSourcePathJoins | COTI/CSVOps.py:47-49 | the three parts rejoin to the path exactly when the name cut does not lie after the extension cut |
| Paths.SplitSourcePathRejoins | COTI/CSVOps.py:47-49 | a path whose last backslash lies before its final four characters is the concatenation of its parts |
| Paths.ShortFileNameOverlaps | COTI/CSVOps.py:48-49 | `ab\cd` cuts into `ab\`, an empty name and the overlapping extension `b\cd` |
| Paths.Unescape | COTI/CSVOps.py:92 | the literal text `%` formatting reads is never longer than the template text |
| Paths.UnescapeLiteral | COTI/CSVOps.py:92 | text without `%` formats as itself |
| Paths.Escape | COTI/CSVOps.py:92 | every literal text has a template text that formats to it (each `%` doubled) |
| Paths.UnescapeEscape | COTI/CSVOps.py:92 | every template text that formats is the escaped form of what it formats to |
| Paths.UnescapeExamples | COTI/CSVOps.py:52 | `50%`, `a%d` and an extension ending in `%` make the template unusable; `%%` reads as `%` |
| Paths.OutputName | COTI/CSVOps.py:90-93 | the piece name is the name's literal text, `(`, the decimal piece number, `)`, the extension's literal text |
| Paths.OutputNameLiteral | COTI/CSVOps.py:52 | a name and extension without `%` appear in the piece name as they are |
| Paths.OutputNameReadBack | COTI/CSVOps.py:92 | the text between the parentheses parses back to the piece number when that number has at most 4300 digits, and `int()` raises on it otherwise |
| Paths.PieceText | COTI/CSVOps.py:92 | the text between the parentheses of a piece's name is the decimal piece number |
| Paths.OutputNamesDistinct | COTI/CSVOps.py:90-93 | distinct pieces get distinct file names |
| Chunking.Start | COTI/CSVOps.py:104-110 | the state before the loop; no contract of its own, `Chunking.ChunkInv` proves the loop invariant holds from it (one empty piece numbered 1, limit `chunk_size`) |
| Chunking.Feed | COTI/CSVOps.py:112-120 | one loop pass keeps an open piece; its partners `Chunking.FeedKeepsPacked`, `Chunking.FeedKeepsSingles` and `Chunking.RotatesWhenFull` state what the pass does |
| Chunking.Drive | COTI/CSVOps.py:112-120 | the loop over the remaining rows; no contract of its own, its partner `Chunking.DriveKeepsInv` carries the invariant to the end |
| Chunking.Chunk | COTI/CSVOps.py:104-120 | the pieces of a run; no contract of its own, its partners are `Chunking.ChunkConserves`, `Chunking.ChunkPacked`, `Chunking.ChunkCount` and `Chunking.ChunkSlices` |
| Chunking.RotatesWhenFull | COTI/CSVOps.py:113 | the test `i + 1 > limit` holds exactly when the open piece already holds `chunk_size` rows |
| Chunking.FeedKeepsPacked | COTI/CSVOps.py:112-120 | with a positive chunk size one loop pass keeps the loop invariant: pieces numbered, full but the last, rows conserved |
| Chunking.FeedKeepsSingles | COTI/CSVOps.py:112-120 | with a chunk size of zero or less one loop pass keeps every row in a piece of its own |
| Chunking.DriveKeepsInv | COTI/CSVOps.py:112-120 | the loop invariant holds after the whole loop |
| Chunking.ChunkConserves | COTI/CSVOps.py:104-120 | for every chunk size: at least one piece, pieces numbered 1, 2, … each with the header, and their rows concatenated are the data |
| Chunking.ChunkPacked | COTI/CSVOps.py:112-120 | with a positive chunk size all pieces but the last are full and the last is non-empty unless there is no data |
| Chunking.ChunkNonPositive | COTI/CSVOps.py:112-117 | with a chunk size of zero or less piece 1 is empty and piece `j + 2` holds exactly row `j` |
| Chunking.ChunkCount | COTI/CSVOps.py:112-117 | `n` data rows give `max(1, ceil(n / c))` pieces |
| Chunking.ChunkSlices | COTI/CSVOps.py:112-120 | piece `j + 1` holds the data rows `[c * j, c * (j + 1))`, cut short at the end |
| Chunking.ChunkPlacesRow | COTI/CSVOps.py:112-120 | row `i` is written to piece `i / c + 1` at position `i % c` |
| Chunking.ChunkBoundary | COTI/CSVOps.py:113 | exactly `c` rows make one piece; `c + 1` rows spill exactly the last row into piece 2 |
| Chunking.ChunkLoop | COTI/CSVOps.py:104-120 | the loop with its `piece` and `limit` counters writes the pieces of the functional model, with the same guarantees |
| Writing.WriteChunks | COTI/CSVOps.py:96-121 | writing fails exactly when the template cannot be formatted, and otherwise writes at least one file |
| Writing.WriteChunksRejoin | COTI/CSVOps.py:107-120 | round trip: the files with their header line stripped, concatenated, give back the data for every chunk size |
| Writing.WriteChunksNames | COTI/CSVOps.py:107-119 | file `k` is named by the template for `k` in the working directory, starts with the kept header, and no two names collide |
| Writing.WriteChunksLayout | COTI/CSVOps.py:104-120 | with a positive chunk size, the file count and each file's exact lines |
| Writing.WriteChunksNonPositive | COTI/CSVOps.py:104-120 | with a chunk size of zero or less, file 1 holds only the header and file `j + 2` the header and row `j` |
| CsvOps.ReadFile | COTI/CSVOps.py:39-63 | reading cuts the path and succeeds exactly on a source with a record, keeping header and data in order |
| CsvOps.GetCsvLength | COTI/CSVOps.py:72-77 | the reported length is the number of data rows, the header not counted |
| CsvOps.ReadFileLength | COTI/CSVOps.py:72-77 | the reported length is the record count less the header |
| CsvOps.WriteFileChunk | COTI/CSVOps.py:96-121 | chunking succeeds exactly when the source's name and extension form a usable template, and writes at least one file |
| CsvOps.ReadFileParts | COTI/CSVOps.py:55-63 | a successful read makes the first record the header and keeps every later record, in order, as the data |
| CsvOps.ChunkLayout | COTI/CSVOps.py:104-121 | with a positive size and the header kept, there are `max(1, ceil(n / c))` files, file `k` holds the header then data rows `[c(k-1), ck)`, and the files give back the data in order |
| CsvOps.ChunkNames | COTI/CSVOps.py:90-117 | file `k` goes to the source's directory under the name the template gives `k` |
| CsvOps.ReadThenChunk | COTI/CSVOps.py:39-121 | reading then chunking: the header is the first record; file `k` is `name(k)extension` in the source's directory and holds the header then records `[c(k-1)+1, ck+1)`; the file count follows the record count; the records after the header come back in order |
| CsvOps.ChunkWithoutHeader | COTI/CSVOps.py:109-120 | without the header the files concatenate to the data |
| Coti.ValidateArgs | COTI/COTI.py:46-95 | the checks in order with their faults; on success the operation and file as given, 5000 for an exact `chunk`, the chunk size untouched otherwise, and the encoding and delimiter defaults |
| Coti.Main | COTI/COTI.py:9-32 | validation faults come first, then the empty source; a run succeeds exactly when validation passes, the source has a record and, for `chunk`, the template is usable, the only other fault being the bad template; the reported count is the data-record count; files are written exactly for the spelling `chunk` |
| Coti.MainChunks | COTI/COTI.py:31-43 | a valid `chunk` run reports `n` data records and writes `max(1, ceil(n / 5000))` files; file `k` is `name(k)extension` in the source's directory and holds the header then data records `[5000(k-1), 5000k)`; together they hold every data record in order |
| Coti.ChunkArgsValid | COTI/COTI.py:46-95 | the exact spelling `chunk` with a file and an integer chunk size passes validation, and the chunk size becomes 5000 |
| Coti.MainReadsThenChunks | COTI/COTI.py:25-43 | a valid `chunk` run reads the source and chunks it in pieces of 5000 with the header kept |
| Coti.AcceptedWritesNothing | COTI/COTI.py:28-32 | an accepted operation not spelled exactly `chunk` reports the count and writes no file |
| Coti.ChunkSizeIgnored | COTI/COTI.py:78-85 | two runs that differ only in an integer `-chunksize` behave identically |
| Coti.OtherSpellingsWriteNothing | COTI/COTI.py:68 | `CHUNK` and `chun` with a Kelvin sign pass validation, report the count and write no file |
| Coti.ChunkNeedsSize | COTI/COTI.py:78-82 | `chunk` without `-chunksize` stops the run with the integer fault |
| ByteSplitter.RowLimit | Prototypes/FileSplitter2_modifiy_bytes.py:100-103 | the row limit is the parsed `-chunksize`, or 10000 when it is absent or not an integer |
| ByteSplitter.RowLimitExamples | Prototypes/FileSplitter2_modifiy_bytes.py:100-103 | a decimal integer of at most 4300 digits is taken as given and a longer one gives 10000; absent, empty and non-numeric arguments give 10000 too |
| ByteSplitter.Split | Prototypes/FileSplitter2_modifiy_bytes.py:7-64 | a bad template fails first, then a missing header; otherwise at least one piece is written |
| ByteSplitter.SplitRejoin | Prototypes/FileSplitter2_modifiy_bytes.py:46-64 | round trip: the pieces without their header lines concatenate to the data; each piece starts with the header when kept |
| ByteSplitter.SplitLayout | Prototypes/FileSplitter2_modifiy_bytes.py:46-64 | with a positive row limit, the piece count and each piece's exact lines |
| ByteSplitter.SplitWrites | Prototypes/FileSplitter2_modifiy_bytes.py:40-64 | with the header kept, piece `k` is named by the template for `k` in the output directory and starts with the header, and the pieces without their headers hold the records after the header in order |
| ByteSplitter.Run | Prototypes/FileSplitter2_modifiy_bytes.py:74-111 | an absent `-file`, then an empty file, stop the run; otherwise it succeeds exactly when the `.csv` template is usable |
| ByteSplitter.RunWrites | Prototypes/FileSplitter2_modifiy_bytes.py:74-111 | a run with a `-file`, a non-empty source and a usable template writes `name(k).csv` pieces in the source's directory, each headed, holding the data rows in order; for a positive limit `c` there are `max(1, ceil(n / c))` pieces and piece `j + 1` holds rows `[cj, c(j+1))` |
| ByteSplitter.RunDefaultLimit | Prototypes/FileSplitter2_modifiy_bytes.py:99-111 | without a usable `-chunksize` the pieces hold 10000 data rows |
| EtlSplitter.UpdateDocumentNo | Prototypes/FileSplitter2-withETL.py:49-55 | the update succeeds exactly on rows of at least 16 fields, sets field 3 to `document-installment` and leaves every other field alone |
| EtlSplitter.UpdateDocumentNoUndo | Prototypes/FileSplitter2-withETL.py:49-55 | cutting `-installment` off the new document number gives back the row as read |
| EtlSplitter.UpdateAll | Prototypes/FileSplitter2-withETL.py:35-47 | every row is updated in order, or the run stops at the first row too short for the update |
| EtlSplitter.Split | Prototypes/FileSplitter2-withETL.py:6-47 | a bad template fails first, then a missing header |
| EtlSplitter.SplitWithHeader | Prototypes/FileSplitter2-withETL.py:32-47 | success exactly when every data row is long enough; each piece starts with the unchanged header; the pieces hold the updated rows in order |
| EtlSplitter.SplitWithoutHeader | Prototypes/FileSplitter2-withETL.py:6-47 | without headers: success exactly when every record, the first one included, is long enough, otherwise a stop at the first short record; the pieces are named `name(k)extension` and hold the updated records in order |
| EtlSplitter.RowLimit | Prototypes/FileSplitter2-withETL.py:87 | the row limit is the parsed `-chunksize`, and an absent or non-integer one stops the run |
| EtlSplitter.Run | Prototypes/FileSplitter2-withETL.py:62-92 | an absent `-file`, an empty file, an unusable `-chunksize`, a bad template, then the first short data row stop the run, in that order; otherwise it succeeds |
| EtlSplitter.SplitWrites | Prototypes/FileSplitter2-withETL.py:6-47 | with long-enough rows, pieces are named `name(k)extension`, start with the header, and hold the updated data rows in order |
| EtlSplitter.SplitLayout | Prototypes/FileSplitter2-withETL.py:35-47 | with a positive limit `c`, there are `max(1, ceil(n / c))` pieces and piece `j + 1` holds the header then updated rows `[cj, c(j+1))` |
| EtlSplitter.RunWrites | Prototypes/FileSplitter2-withETL.py:62-92 | a run with usable arguments and long-enough rows writes `name(k).csv` pieces in the source's directory, each headed, holding the updated rows in order and, for a positive limit, in spans of `c` |
| EtlSplitter.RunNeedsChunkSize | Prototypes/FileSplitter2-withETL.py:87 | no fallback: an absent or non-numeric `-chunksize` stops the run |
| FieldSplitter.ResolveIndex | Prototypes/Field_2_Row_Splitter.py:47 | a field index is valid exactly in `[-n, n)` and a negative one counts from the end |
| FieldSplitter.IsFieldSplit | Prototypes/Field_2_Row_Splitter.py:46-50 | a row is split exactly when the delimiter occurs in the chosen field; an out-of-range index raises |
| FieldSplitter.Explode | Prototypes/Field_2_Row_Splitter.py:52-57 | one output row per whitespace token, each the input row with the field replaced by that token and every other field unchanged |
| FieldSplitter.ExplodeKeepsText | Prototypes/Field_2_Row_Splitter.py:52-57 | the tokens written lose only whitespace from the field and re-split to themselves |
| FieldSplitter.RowOut | Prototypes/Field_2_Row_Splitter.py:36-42 | one row's output; no contract of its own, `FieldSplitter.SplitRowsWrites` proves the loop writes exactly these outputs in row order |
| FieldSplitter.Expand | Prototypes/Field_2_Row_Splitter.py:35-42 | the outputs of all rows in order; no contract of its own, its partners are `FieldSplitter.ExpandCons`, `FieldSplitter.ExpandSnoc` and `FieldSplitter.SplitRowsWrites` |
| FieldSplitter.ExpandCons | Prototypes/Field_2_Row_Splitter.py:35-42 | the first row's output comes first, then the outputs of the rest |
| FieldSplitter.CountSplit | Prototypes/Field_2_Row_Splitter.py:35-37 | the number of rows holding the delimiter, never more than the rows; `FieldSplitter.SplitRowsWrites` proves it is the `counterSplit` the loop reaches |
| FieldSplitter.SplitRows | Prototypes/Field_2_Row_Splitter.py:33-42 | the loop succeeds exactly when every field index is in range and otherwise stops at the first row with an out-of-range index; the counters add up to the row count in `no` mode and `notSplit` stays 0 in `yes` mode |
| FieldSplitter.ExpandSnoc | Prototypes/Field_2_Row_Splitter.py:35-42 | one more row adds exactly that row's output and its count at the end |
| FieldSplitter.SplitRowsWrites | Prototypes/Field_2_Row_Splitter.py:33-42 | the loop writes, in row order, each matching row's explosion and, in `no` mode only, each other row unchanged; `split` counts the matching rows and `notSplit` the others in `no` mode |
| FieldSplitter.SplitRowsWithoutDelimiter | Prototypes/Field_2_Row_Splitter.py:35-42 | no row holds the delimiter: `no` mode passes the data through unchanged, `yes` mode writes nothing |
| FieldSplitter.SplitRowsAllDelimited | Prototypes/Field_2_Row_Splitter.py:35-42 | every row holds the delimiter: all count as split and the output is the rows' explosions one after another, one row per token |
| FieldSplitter.ExpandAllDelimited | Prototypes/Field_2_Row_Splitter.py:36-38 | when every row holds the delimiter, each row's output is its explosion and every row counts as split |
| FieldSplitter.ExplodeAllTokens | Prototypes/Field_2_Row_Splitter.py:53-57 | the explosions hold one row per whitespace token of the field |
| FieldSplitter.DelimiterDoesNotCut | Prototypes/Field_2_Row_Splitter.py:36-38 | with `;`, the field `a;b` is written once unchanged, and a row without `;` is dropped in `yes` mode |
| FieldSplitter.BlankFieldVanishes | Prototypes/Field_2_Row_Splitter.py:53-57 | a split row whose field is only whitespace produces no output row, in either mode |
| FieldSplitter.EmptyDelimiterAlwaysSplits | Prototypes/Field_2_Row_Splitter.py:47 | the empty field delimiter is in every field |
| FieldSplitter.Split | Prototypes/Field_2_Row_Splitter.py:6-44 | a bad template fails first, then a missing header, then the first out-of-range field index; otherwise it succeeds, the single output file is piece 1 and holds the header then the loop's rows, with the loop's counters |
| FieldSplitter.NormalizeSplitFieldOnly | Prototypes/Field_2_Row_Splitter.py:117-127 | the setting is `yes` or `no`, and `no` exactly when the lower-cased argument is `no` |
| FieldSplitter.NoModeSpellings | Prototypes/Field_2_Row_Splitter.py:118-120 | `no` mode is selected exactly by `no`, `No`, `nO` and `NO` |
| FieldSplitter.Configure | Prototypes/Field_2_Row_Splitter.py:76-127 | the argument checks in order with their faults; on success the cut path, the parsed field number and the defaults for absent delimiter and encoding |
| FieldSplitter.Run | Prototypes/Field_2_Row_Splitter.py:76-145 | configuration faults first, then an empty file, then a bad template, then the first out-of-range field index; otherwise it succeeds and `name(1).csv` holds the header then the loop's rows, with the loop's counters |

## Left out

- Reading and writing CSV text is left out: quoting, the delimiter (`-delimiter`, `|`, a tab), encodings, newline handling and `open`. The model receives the records the reader yields and returns each file's lines.
- `os.path.join` is left out. An output file keeps its directory and its name apart.
- Console output (`print`) and `argparse` itself are left out; `--help` and argument syntax errors are not modelled. `quit()` and uncaught exceptions become `Err`.
- `CSVOps.__init__` is defined twice. Python keeps only the second definition, so only that constructor exists. `CsvOps.ReadFile` models it; `getCSVData` and `instantiateDataCSV` only expose or create the record store.
- `CSVData.py` is not part of this model. Its `dataHeader`, `data` and `hasData` fields are modelled from their use in `CSVOps.py`.
- The `csv.field_size_limit` retry loop is left out (`FileSplitter2_modifiy_bytes.py` lines 25-37). It only configures the reader. So is that script's handler that turns a reader `csv.Error` into `sys.exit`.
- Of the line-count pass each prototype script makes before splitting, only its failure on an empty file is modelled (`NothingToCount`). The count itself is only printed.
- Output files written before a run stops stay on disk, but the model returns only the fault. This applies to a short row in the ETL splitter and an out-of-range field index in the field splitter.
- `Field_2_Row_Splitter.py` defines an `updateDocumentNo` (lines 59-65) that it never calls. It is identical to the ETL script's and is modelled once, as `EtlSplitter.UpdateDocumentNo`.
- The `except` branch of `stringBlankOrNone` (lines 10-12) is left out, because `str()` of a command-line value never raises.
- Validator.IsInt: like `Integers.ParseInt`, it accepts ASCII digits only. Python's `int()` also accepts other Unicode decimal digits (such as Arabic-Indic digits), which the model rejects.
- Text.Lower: Python's `str.lower()` also lowers letters beyond ASCII (`Ä` becomes `ä`), and some characters become two (`İ` becomes `i` and a combining dot). The model lowers only `A`-`Z` and the Kelvin sign and keeps the length. The lowered text is only compared with ASCII words and printed.
- Integers.Decimal: Python's `str()` raises on an integer of more than 4300 digits, and the model formats every integer. The only numbers the scripts format are piece numbers, which never come near that size.
- Text.LowerToWord: `Text.Lower` lowers only `A`-`Z` and the Kelvin sign, and leaves other characters as they are. Every comparison the scripts make after `lower()` is with an ASCII word, so the outcome of those comparisons is the same as in Python. The lowered text itself is not the same, and it is only printed.

=== FILE: bytesplitter.dfy ===
/** Prototypes/FileSplitter2_modifiy_bytes.py: a stand-alone splitter that
cuts a source file into numbered `.csv` pieces of a fixed number of data
rows, repeating the header at the top of each piece.

The records the CSV reader yields for the source are a parameter; an
empty list stands for an empty file, which has no lines and no records.
 */
module ByteSplitter {
  import opened Results
  import opened Records
  import opened Writing
  import Integers
  import Paths

  /** The row limit used when `-chunksize` is absent or not an integer. */
  const DefaultRowLimit: int := 10000

  /** `int(args.chunksize)`, with every failure (`TypeError` for an absent
      argument, `ValueError` for a non-integer) caught and replaced by the
      default. */
  function RowLimit(arg: Option<string>): (n: int)
    ensures arg.Some? && Integers.ParseInt(arg.value).Some? ==> n == Integers.ParseInt(arg.value).value
    ensures arg.None? || Integers.ParseInt(arg.value).None? ==> n == DefaultRowLimit
  {
    match arg
    case None => DefaultRowLimit
    case Some(s) =>
      match Integers.ParseInt(s)
      case Some(n) => n
      case None => DefaultRowLimit
  }

  /** Every integer, written in decimal, is taken as given unless it has
      more digits than `int()` converts; an absent or unreadable argument
      gives the default. */
  lemma RowLimitExamples(n: int)
    ensures RowLimit(Some(Integers.Decimal(n))) == if Integers.WithinDigitLimit(n) then n else DefaultRowLimit
    ensures RowLimit(None) == DefaultRowLimit
    ensures RowLimit(Some("")) == DefaultRowLimit && RowLimit(Some("abc")) == DefaultRowLimit
  {
    Integers.ParseDecimal(n);
    Integers.ParseIntRejects();
  }

  /** `split(filehandler, row_limit, output_name_template, output_path,
      keep_headers)`: the template `name + '(%s)' + extension` is formatted
      for piece 1 first; then, when headers are kept, the first record is
      taken as the header; then every remaining record is written through
      the chunking loop. */
  function Split(records: seq<Row>, rowLimit: int, directory: string, name: string,
                 extension: string, keepHeaders: bool): (r: Result<seq<OutputFile>>)
    ensures !Paths.PlainTemplate(name, extension) ==> r == Err(TemplateBadPercent)
    ensures Paths.PlainTemplate(name, extension) && keepHeaders && records == [] ==> r == Err(EmptySource)
    ensures r.Ok? <==> Paths.PlainTemplate(name, extension) && (keepHeaders ==> records != [])
    ensures r.Ok? ==> |r.value| >= 1
  {
    if !Paths.PlainTemplate(name, extension) then Err(TemplateBadPercent)
    else if keepHeaders then
      if |records| == 0 then Err(EmptySource)
      else WriteChunks(directory, name, extension, Some(records[0]), records[1..], rowLimit)
    else WriteChunks(directory, name, extension, None, records, rowLimit)
  }

  /** Round trip: stripping the header line from each piece (when kept) and
      concatenating the pieces gives back the data, in order; each piece
      starts with the source's first record when headers are kept. */
  lemma SplitRejoin(records: seq<Row>, rowLimit: int, directory: string, name: string,
                    extension: string, keepHeaders: bool)
    requires Split(records, rowLimit, directory, name, extension, keepHeaders).Ok?
    ensures var fs := Split(records, rowLimit, directory, name, extension, keepHeaders).value;
      && Rejoin(fs, keepHeaders) == SplitData(records, keepHeaders)
      && (keepHeaders ==> forall j | 0 <= j < |fs| :: |fs[j].lines| > 0 && fs[j].lines[0] == records[0])
  {
    if keepHeaders {
      SplitWrites(records, rowLimit, directory, name, extension);
    } else {
      assert Split(records, rowLimit, directory, name, extension, false)
        == WriteChunks(directory, name, extension, None, records, rowLimit);
      WriteChunksRejoin(directory, name, extension, None, records, rowLimit);
    }
  }

  /** With a positive row limit, piece `j + 1` holds the header and then the
      data rows `[c * j, c * (j + 1))` of the records after the header. */
  lemma SplitLayout(records: seq<Row>, rowLimit: int, directory: string, name: string, extension: string)
    requires Paths.PlainTemplate(name, extension) && |records| > 0 && rowLimit >= 1
    ensures var r := Split(records, rowLimit, directory, name, extension, true);
      var n := |records| - 1;
      && r.Ok?
      && |r.value| == (if n == 0 then 1 else (n - 1) / rowLimit + 1)
      && forall j | 0 <= j < |r.value| ::
           r.value[j].lines == [records[0]] + Chunking.Span(records[1..], rowLimit, j)
  {
    WriteChunksLayout(directory, name, extension, Some(records[0]), records[1..], rowLimit);
  }

  /** With headers kept, every piece lands in `directory` under the name
      the template gives its 1-based position and starts with the header;
      stripped of their headers the pieces hold the records after the
      header, in order. */
  lemma SplitWrites(records: seq<Row>, rowLimit: int, directory: string, name: string, extension: string)
    requires Paths.PlainTemplate(name, extension) && |records| > 0
    ensures var r := Split(records, rowLimit, directory, name, extension, true);
      && r.Ok?
      && (forall j | 0 <= j < |r.value| ::
            && r.value[j].directory == directory
            && r.value[j].name == Paths.OutputName(name, extension, j + 1)
            && |r.value[j].lines| > 0 && r.value[j].lines[0] == records[0])
      && Rejoin(r.value, true) == records[1..]
  {
    var h := Some(records[0]);
    assert Split(records, rowLimit, directory, name, extension, true)
      == WriteChunks(directory, name, extension, h, records[1..], rowLimit);
    WriteChunksRejoin(directory, name, extension, h, records[1..], rowLimit);
    WriteChunksNames(directory, name, extension, h, records[1..], rowLimit);
  }

  /** The command-line arguments of the script. */
  datatype SplitterArgs = SplitterArgs(file: Option<string>, chunkSize: Option<string>)

  /** The script body: cut the path (which fails on an absent `-file`), count
      the lines (which fails on an empty file), settle the row limit, then
      split with headers kept, naming the pieces `name(k).csv` in the
      source's directory. */
  function Run(a: SplitterArgs, records: seq<Row>): (r: Result<seq<OutputFile>>)
    ensures a.file.None? ==> r == Err(FileMissing)
    ensures a.file.Some? && records == [] ==> r == Err(NothingToCount)
    ensures r.Ok? <==>
      && a.file.Some? && records != []
      && Paths.PlainTemplate(Paths.SplitSourcePath(a.file.value).name, Paths.TargetExtension)
  {
    match a.file
    case None => Err(FileMissing)
    case Some(path) =>
      if |records| == 0 then Err(NothingToCount)
      else
        var p := Paths.SplitSourcePath(path);
        Split(records, RowLimit(a.chunkSize), p.directory, p.name, Paths.TargetExtension, true)
  }

  /** A run without a usable `-chunksize` writes pieces of 10000 data rows. */
  lemma RunDefaultLimit(path: string, chunkSize: Option<string>, records: seq<Row>)
    requires chunkSize.None? || Integers.ParseInt(chunkSize.value).None?
    requires |records| > 0
    requires Paths.PlainTemplate(Paths.SplitSourcePath(path).name, Paths.TargetExtension)
    ensures var r := Run(SplitterArgs(Some(path), chunkSize), records);
      && r.Ok?
      && forall j | 0 <= j < |r.value| ::
           r.value[j].lines == [records[0]] + Chunking.Span(records[1..], DefaultRowLimit, j)
  {
    var p := Paths.SplitSourcePath(path);
    SplitLayout(records, DefaultRowLimit, p.directory, p.name, Paths.TargetExtension);
  }

  /** A run with a `-file` on a non-empty source whose name makes a usable
      template writes `name(k).csv` pieces in the source's directory, each
      starting with the header; stripped of their headers they hold the
      records after the header in order, and with a positive row limit `c`
      (the parsed `-chunksize`, or 10000) there are `max(1, ceil(n / c))`
      pieces for `n` data rows and piece `j + 1` holds the data rows
      `[c * j, c * (j + 1))`. */
  lemma RunWrites(path: string, chunkSize: Option<string>, records: seq<Row>)
    requires |records| > 0
    requires Paths.PlainTemplate(Paths.SplitSourcePath(path).name, Paths.TargetExtension)
    ensures var r := Run(SplitterArgs(Some(path), chunkSize), records);
      var p, c := Paths.SplitSourcePath(path), RowLimit(chunkSize);
      var n := |records| - 1;
      && r.Ok?
      && (forall j | 0 <= j < |r.value| ::
            && r.value[j].directory == p.directory
            && r.value[j].name == Paths.OutputName(p.name, Paths.TargetExtension, j + 1)
            && |r.value[j].lines| > 0 && r.value[j].lines[0] == records[0])
      && Rejoin(r.value, true) == records[1..]
      && (c >= 1 ==>
            && |r.value| == (if n == 0 then 1 else (n - 1) / c + 1)
            && forall j | 0 <= j < |r.value| :: r.value[j].lines == [records[0]] + Chunking.Span(records[1..], c, j))
  {
    var p, c := Paths.SplitSourcePath(path), RowLimit(chunkSize);
    assert Run(SplitterArgs(Some(path), chunkSize), records)
      == Split(records, c, p.directory, p.name, Paths.TargetExtension, true);
    SplitWrites(records, c, p.directory, p.name, Paths.TargetExtension);
    if c >= 1 {
      SplitLayout(records, c, p.directory, p.name, Paths.TargetExtension);
    }
  }
}

=== FILE: chunking.dfy ===
/** The row-count chunking engine shared by `CSVOps.writeFileChunk` and the
`split` functions of the two file-splitter prototypes.

The engine opens piece 1 before looking at any row, then walks the data rows
with a running limit. Row `i` (0-based) first checks `i + 1 > limit`; when
that holds it opens the next piece and sets `limit = chunk_size * piece`.
Then it writes the row to the open piece. When a header is kept, it is
written at the top of every piece as that piece is opened.

The model keeps the loop state exactly: `Engine` holds `piece` and `limit`
and the pieces written so far, the last of which is the open one.
 */
module Chunking {
  import opened Results
  import opened Records
  import Paths

  /** One output file: its number, the header written at its top when kept,
      and the data rows written after it. */
  datatype Piece = Piece(number: int, header: Option<Row>, rows: seq<Row>) {
    /** The lines of the file, in order. */
    function Lines(): seq<Row> {
      match header
      case Some(h) => [h] + rows
      case None => rows
    }
  }

  /** The loop state: `current_piece`, `current_limit` and the pieces opened
      so far; the last piece is the one the writer is bound to. */
  datatype Engine = Engine(piece: int, limit: int, pieces: seq<Piece>)

  /** Before the loop: piece 1 is opened, and `limit` is the chunk size. */
  function Start(chunkSize: int, header: Option<Row>): Engine {
    Engine(1, chunkSize, [Piece(1, header, [])])
  }

  /** `writerow(row)` on the open piece. */
  function Write(e: Engine, row: Row): (r: Engine)
    requires |e.pieces| > 0
    ensures |r.pieces| == |e.pieces|
  {
    var last := e.pieces[|e.pieces| - 1];
    e.(pieces := e.pieces[..|e.pieces| - 1] + [last.(rows := last.rows + [row])])
  }

  /** One pass of the loop body for the data row at index `i`. */
  function Feed(e: Engine, chunkSize: int, header: Option<Row>, i: nat, row: Row): (r: Engine)
    requires |e.pieces| > 0
    ensures |r.pieces| > 0
  {
    if i + 1 > e.limit then
      var next := e.piece + 1;
      Write(Engine(next, chunkSize * next, e.pieces + [Piece(next, header, [])]), row)
    else
      Write(e, row)
  }

  /** The loop from the data row at index `i` to the end. */
  function Drive(data: seq<Row>, chunkSize: int, header: Option<Row>, i: nat, e: Engine): Engine
    requires i <= |data| && |e.pieces| > 0
    decreases |data| - i
  {
    if i == |data| then e
    else Drive(data, chunkSize, header, i + 1, Feed(e, chunkSize, header, i, data[i]))
  }

  /** The pieces a run writes for `data`; `header` is the header row when it
      is kept and `None` otherwise. */
  function Chunk(data: seq<Row>, chunkSize: int, header: Option<Row>): seq<Piece> {
    Drive(data, chunkSize, header, 0, Start(chunkSize, header)).pieces
  }

  // ---------------------------------------------------------------------
  // What a run leaves behind
  // ---------------------------------------------------------------------

  /** The data rows of the pieces, concatenated in piece order. */
  function DataRows(ps: seq<Piece>): seq<Row> {
    if |ps| == 0 then [] else DataRows(ps[..|ps| - 1]) + ps[|ps| - 1].rows
  }

  /** Pieces are numbered 1, 2, ... without gaps, and each carries the same
      header. */
  ghost predicate NumberedWith(ps: seq<Piece>, header: Option<Row>) {
    forall j | 0 <= j < |ps| :: ps[j].number == j + 1 && ps[j].header == header
  }

  /** Every piece but the last holds exactly `chunkSize` rows; the last holds
      at most that many, and none only when it is the only piece. */
  ghost predicate Packed(ps: seq<Piece>, chunkSize: int) {
    && |ps| > 0
    && (forall j | 0 <= j < |ps| - 1 :: |ps[j].rows| == chunkSize)
    && |ps[|ps| - 1].rows| <= chunkSize
    && (|ps| == 1 || |ps[|ps| - 1].rows| > 0)
  }

  /** With a non-positive chunk size every row opens a piece of its own:
      piece 1 stays empty and piece `j + 2` holds exactly row `j`. */
  ghost predicate Singles(ps: seq<Piece>, done: seq<Row>) {
    && |ps| == |done| + 1
    && ps[0].rows == []
    && forall j | 0 <= j < |done| :: ps[j + 1].rows == [done[j]]
  }

  /** The loop invariant after the data rows `done` have been written. */
  ghost predicate Inv(done: seq<Row>, chunkSize: int, header: Option<Row>, e: Engine) {
    && |e.pieces| > 0
    && e.piece == |e.pieces|
    && e.limit == chunkSize * e.piece
    && NumberedWith(e.pieces, header)
    && DataRows(e.pieces) == done
    && (chunkSize >= 1 ==> Packed(e.pieces, chunkSize))
    && (chunkSize <= 0 ==> Singles(e.pieces, done))
  }

  lemma DataRowsSnoc(ps: seq<Piece>, p: Piece)
    ensures DataRows(ps + [p]) == DataRows(ps) + p.rows
  {
    assert (ps + [p])[..|ps|] == ps;
  }

  /** Pieces that all hold `chunkSize` rows hold `chunkSize * |ps|` rows. */
  lemma {:induction false} FullLength(ps: seq<Piece>, chunkSize: int)
    requires forall j | 0 <= j < |ps| :: |ps[j].rows| == chunkSize
    ensures |DataRows(ps)| == chunkSize * |ps|
  {
    if |ps| > 0 {
      var k := |ps| - 1;
      FullLength(ps[..k], chunkSize);
      assert chunkSize * k + chunkSize == chunkSize * (k + 1);
    }
  }

  lemma MulNonPositive(c: int, k: int)
    requires c <= 0 && k >= 1
    ensures c * k <= 0
  {
  }

  /** Writing a row appends it to the open piece and touches nothing else. */
  lemma WriteAppends(e: Engine, row: Row)
    requires |e.pieces| > 0
    ensures var r := Write(e, row); var k := |e.pieces|;
      && r.piece == e.piece && r.limit == e.limit
      && r.pieces[..k - 1] == e.pieces[..k - 1]
      && r.pieces[k - 1] == e.pieces[k - 1].(rows := e.pieces[k - 1].rows + [row])
      && DataRows(r.pieces) == DataRows(e.pieces) + [row]
  {
    var k := |e.pieces|;
    var last := e.pieces[k - 1];
    var r := Write(e, row);
    DataRowsSnoc(e.pieces[..k - 1], last);
    assert e.pieces[..k - 1] + [last] == e.pieces;
    DataRowsSnoc(e.pieces[..k - 1], last.(rows := last.rows + [row]));
  }

  /** Rotation: the next piece is opened with the header, and the limit
      moves to `chunkSize` times its number. */
  function Rotate(e: Engine, chunkSize: int, header: Option<Row>): Engine {
    var next := e.piece + 1;
    Engine(next, chunkSize * next, e.pieces + [Piece(next, header, [])])
  }

  lemma FeedIsRotateThenWrite(e: Engine, chunkSize: int, header: Option<Row>, i: nat, row: Row)
    requires |e.pieces| > 0
    ensures Feed(e, chunkSize, header, i, row)
         == Write(if i + 1 > e.limit then Rotate(e, chunkSize, header) else e, row)
  {
  }

  lemma RotateKeepsNumbering(e: Engine, chunkSize: int, header: Option<Row>)
    requires |e.pieces| > 0 && e.piece == |e.pieces| && NumberedWith(e.pieces, header)
    ensures var r := Rotate(e, chunkSize, header);
      && r.piece == |r.pieces| && r.limit == chunkSize * r.piece
      && NumberedWith(r.pieces, header)
      && DataRows(r.pieces) == DataRows(e.pieces)
      && r.pieces[..|e.pieces|] == e.pieces
      && r.pieces[|e.pieces|].rows == []
  {
    var r := Rotate(e, chunkSize, header);
    DataRowsSnoc(e.pieces, r.pieces[|e.pieces|]);
  }

  /** With a positive chunk size the loop rotates exactly when the open
      piece already holds `chunkSize` rows. */
  lemma RotatesWhenFull(done: seq<Row>, chunkSize: int, header: Option<Row>, e: Engine)
    requires chunkSize >= 1 && Inv(done, chunkSize, header, e)
    ensures |done| + 1 > e.limit <==> |e.pieces[|e.pieces| - 1].rows| == chunkSize
  {
    var ps := e.pieces;
    var k := |ps|;
    FullLength(ps[..k - 1], chunkSize);
    DataRowsSnoc(ps[..k - 1], ps[k - 1]);
    assert ps[..k - 1] + [ps[k - 1]] == ps;
    assert |done| == chunkSize * (k - 1) + |ps[k - 1].rows|;
    assert chunkSize * (k - 1) + chunkSize == chunkSize * k;
  }

  lemma FeedKeepsPacked(done: seq<Row>, row: Row, chunkSize: int, header: Option<Row>, e: Engine)
    requires chunkSize >= 1 && Inv(done, chunkSize, header, e)
    ensures Inv(done + [row], chunkSize, header, Feed(e, chunkSize, header, |done|, row))
  {
    FeedIsRotateThenWrite(e, chunkSize, header, |done|, row);
    RotatesWhenFull(done, chunkSize, header, e);
    if |done| + 1 > e.limit {
      var o := Rotate(e, chunkSize, header);
      RotateKeepsNumbering(e, chunkSize, header);
      WriteAppends(o, row);
    } else {
      WriteAppends(e, row);
    }
  }

  lemma FeedKeepsSingles(done: seq<Row>, row: Row, chunkSize: int, header: Option<Row>, e: Engine)
    requires chunkSize <= 0 && Inv(done, chunkSize, header, e)
    ensures Inv(done + [row], chunkSize, header, Feed(e, chunkSize, header, |done|, row))
  {
    FeedIsRotateThenWrite(e, chunkSize, header, |done|, row);
    MulNonPositive(chunkSize, e.piece);
    var o := Rotate(e, chunkSize, header);
    RotateKeepsNumbering(e, chunkSize, header);
    WriteAppends(o, row);
    var r := Write(o, row);
    assert r.pieces[..|e.pieces|] == e.pieces;
    var done' := done + [row];
    forall j | 0 <= j < |done'|
      ensures r.pieces[j + 1].rows == [done'[j]]
    {
      if j < |done| {
        assert r.pieces[j + 1] == e.pieces[j + 1];
      }
    }
  }

  /** One pass of the loop body keeps the invariant. */
  lemma FeedKeepsInv(done: seq<Row>, row: Row, chunkSize: int, header: Option<Row>, e: Engine)
    requires Inv(done, chunkSize, header, e)
    ensures Inv(done + [row], chunkSize, header, Feed(e, chunkSize, header, |done|, row))
  {
    if chunkSize >= 1 {
      FeedKeepsPacked(done, row, chunkSize, header, e);
    } else {
      FeedKeepsSingles(done, row, chunkSize, header, e);
    }
  }

  /** The loop pass for row `i` extends the invariant from the rows before
      `i` to the rows up to and including `i`. */
  lemma DriveStep(data: seq<Row>, chunkSize: int, header: Option<Row>, i: nat, e: Engine)
    requires i < |data|
    requires Inv(data[..i], chunkSize, header, e)
    ensures Inv(data[..i + 1], chunkSize, header, Feed(e, chunkSize, header, i, data[i]))
  {
    FeedKeepsInv(data[..i], data[i], chunkSize, header, e);
    assert data[..i] + [data[i]] == data[..i + 1];
  }

  /** The rest of the loop keeps the invariant to the end. */
  lemma {:induction false} DriveKeepsInv(data: seq<Row>, chunkSize: int, header: Option<Row>, i: nat, e: Engine)
    requires i <= |data| && |e.pieces| > 0
    requires Inv(data[..i], chunkSize, header, e)
    ensures Inv(data, chunkSize, header, Drive(data, chunkSize, header, i, e))
    decreases |data| - i
  {
    if i == |data| {
      assert data[..i] == data;
    } else {
      DriveStep(data, chunkSize, header, i, e);
      DriveKeepsInv(data, chunkSize, header, i + 1, Feed(e, chunkSize, header, i, data[i]));
    }
  }

  lemma ChunkInv(data: seq<Row>, chunkSize: int, header: Option<Row>)
    ensures Inv(data, chunkSize, header, Drive(data, chunkSize, header, 0, Start(chunkSize, header)))
  {
    var s := Start(chunkSize, header);
    assert DataRows(s.pieces) == [] by {
      assert s.pieces[..0] == [];
    }
    assert data[..0] == [];
    DriveKeepsInv(data, chunkSize, header, 0, s);
  }

  // ---------------------------------------------------------------------
  // Properties of a run
  // ---------------------------------------------------------------------

  /** Every data row is written exactly once, in order, whatever the chunk
      size; the pieces are numbered 1, 2, ... and each starts with the
      header when it is kept. Piece 1 exists even when there is no data. */
  lemma ChunkConserves(data: seq<Row>, chunkSize: int, header: Option<Row>)
    ensures var ps := Chunk(data, chunkSize, header);
      && |ps| >= 1
      && DataRows(ps) == data
      && (forall j | 0 <= j < |ps| :: ps[j].number == j + 1 && ps[j].header == header)
  {
    ChunkInv(data, chunkSize, header);
  }

  /** With a positive chunk size every piece but the last is full, and the
      last holds between 1 and `chunkSize` rows (none only when there is no
      data at all and piece 1 is the only piece). */
  lemma ChunkPacked(data: seq<Row>, chunkSize: int, header: Option<Row>)
    requires chunkSize >= 1
    ensures var ps := Chunk(data, chunkSize, header);
      && |ps| >= 1
      && (forall j | 0 <= j < |ps| - 1 :: |ps[j].rows| == chunkSize)
      && |ps[|ps| - 1].rows| <= chunkSize
      && (|ps[|ps| - 1].rows| > 0 || (|ps| == 1 && data == []))
  {
    ChunkInv(data, chunkSize, header);
    var ps := Chunk(data, chunkSize, header);
    if |ps| == 1 && |ps[0].rows| == 0 {
      assert DataRows(ps) == DataRows(ps[..0]) + ps[0].rows;
    }
  }

  /** With a non-positive chunk size the limit never exceeds the row
      number, so every row rotates: piece 1 holds no data and piece `j + 2`
      holds exactly row `j`. */
  lemma ChunkNonPositive(data: seq<Row>, chunkSize: int, header: Option<Row>)
    requires chunkSize <= 0
    ensures var ps := Chunk(data, chunkSize, header);
      && |ps| == |data| + 1
      && ps[0].rows == []
      && forall j | 0 <= j < |data| :: ps[j + 1].rows == [data[j]]
  {
    ChunkInv(data, chunkSize, header);
  }

  /** The loop of `writeFileChunk` as written: the running `piece` and
      `limit` counters, a new piece opened when the 1-based row number
      passes the limit, and each row appended to the open piece. It writes
      exactly the pieces of `Chunk`. */
  method ChunkLoop(data: seq<Row>, chunkSize: int, header: Option<Row>) returns (pieces: seq<Piece>)
    ensures |pieces| >= 1 && DataRows(pieces) == data
    ensures forall j | 0 <= j < |pieces| :: pieces[j].number == j + 1 && pieces[j].header == header
    ensures chunkSize >= 1 ==> forall j | 0 <= j < |pieces| - 1 :: |pieces[j].rows| == chunkSize
    ensures chunkSize >= 1 ==> |pieces[|pieces| - 1].rows| <= chunkSize
    ensures chunkSize >= 1 ==> |pieces[|pieces| - 1].rows| > 0 || data == []
    ensures chunkSize <= 0 ==> |pieces| == |data| + 1
    ensures pieces == Chunk(data, chunkSize, header)
  {
    var piece := 1;
    var limit := chunkSize;
    pieces := [Piece(1, header, [])];
    for i := 0 to |data|
      invariant |pieces| > 0
      invariant Drive(data, chunkSize, header, i, Engine(piece, limit, pieces))
             == Drive(data, chunkSize, header, 0, Start(chunkSize, header))
    {
      ghost var before := Engine(piece, limit, pieces);
      if i + 1 > limit {
        piece := piece + 1;
        limit := chunkSize * piece;
        pieces := pieces + [Piece(piece, header, [])];
      }
      var last := pieces[|pieces| - 1];
      pieces := pieces[..|pieces| - 1] + [last.(rows := last.rows + [data[i]])];
      assert Engine(piece, limit, pieces) == Feed(before, chunkSize, header, i, data[i]);
    }
    ChunkConserves(data, chunkSize, header);
    if chunkSize >= 1 {
      ChunkPacked(data, chunkSize, header);
    } else {
      ChunkNonPositive(data, chunkSize, header);
    }
  }

  // ---------------------------------------------------------------------
  // Where each row lands
  // ---------------------------------------------------------------------

  function Min(a: int, b: int): (m: int)
    ensures m <= a && m <= b && (m == a || m == b)
  {
    if a <= b then a else b
  }

  /** Piece `j` occupies the stretch of the concatenated data rows that
      starts after the rows of the pieces before it. */
  lemma {:induction false} RowsOfPiece(ps: seq<Piece>, j: nat)
    requires j < |ps|
    ensures var s := |DataRows(ps[..j])|;
      && s + |ps[j].rows| <= |DataRows(ps)|
      && DataRows(ps)[s..s + |ps[j].rows|] == ps[j].rows
  {
    var k := |ps| - 1;
    if j < k {
      var front := ps[..k];
      assert front[..j] == ps[..j] && front[j] == ps[j];
      RowsOfPiece(front, j);
      assert DataRows(ps) == DataRows(front) + ps[k].rows;
    } else {
      assert DataRows(ps) == DataRows(ps[..j]) + ps[j].rows;
    }
  }

  lemma MulMonotone(c: int, a: int, b: int)
    requires c > 0 && a <= b
    ensures c * a <= c * b
  {
  }

  /** The only multiple of `c` strictly between `-c` and `c` is 0. */
  lemma OnlyZeroMultiple(c: int, k: int)
    requires c > 0 && -c < c * k < c
    ensures k == 0
  {
    if k >= 1 {
      MulMonotone(c, 1, k);
      assert false;
    }
    if k <= -1 {
      MulMonotone(c, k, -1);
      assert false;
    }
  }

  /** Euclidean division is determined by quotient and remainder. */
  lemma DivFromParts(x: int, c: int, q: int, r: int)
    requires c > 0 && 0 <= r < c && x == c * q + r
    ensures x / c == q && x % c == r
  {
    var q', r' := x / c, x % c;
    assert x == c * q' + r' && 0 <= r' < c;
    assert c * (q - q') == r' - r;
    OnlyZeroMultiple(c, q - q');
  }

  /** With a positive chunk size, `n` data rows give `max(1, ceil(n / c))`
      pieces. */
  lemma ChunkCount(data: seq<Row>, chunkSize: int, header: Option<Row>)
    requires chunkSize >= 1
    ensures |Chunk(data, chunkSize, header)| == if |data| == 0 then 1 else (|data| - 1) / chunkSize + 1
  {
    ChunkInv(data, chunkSize, header);
    var ps := Chunk(data, chunkSize, header);
    var k := |ps|;
    var last := |ps[k - 1].rows|;
    FullLength(ps[..k - 1], chunkSize);
    DataRowsSnoc(ps[..k - 1], ps[k - 1]);
    assert ps[..k - 1] + [ps[k - 1]] == ps;
    assert |data| == chunkSize * (k - 1) + last;
    if |data| > 0 {
      if k > 1 {
        assert last > 0;
      }
      DivFromParts(|data| - 1, chunkSize, k - 1, last - 1);
    }
  }

  /** The data rows at indexes `[c * j, c * (j + 1))`, cut short at the end
      of the data. */
  function Span(data: seq<Row>, chunkSize: int, j: int): seq<Row> {
    var lo, hi := chunkSize * j, Min(chunkSize * (j + 1), |data|);
    if 0 <= lo <= hi then data[lo..hi] else []
  }

  /** With a positive chunk size, piece `j + 1` holds exactly the data rows
      at indexes `[c * j, c * (j + 1))`, cut short at the end of the data.
      Together with `ChunkPacked` this puts every span but the last wholly
      inside the data. */
  lemma ChunkSlices(data: seq<Row>, chunkSize: int, header: Option<Row>)
    requires chunkSize >= 1
    ensures var ps := Chunk(data, chunkSize, header);
      forall j | 0 <= j < |ps| :: ps[j].rows == Span(data, chunkSize, j)
  {
    ChunkInv(data, chunkSize, header);
    var ps := Chunk(data, chunkSize, header);
    var k := |ps|;
    FullLength(ps[..k - 1], chunkSize);
    DataRowsSnoc(ps[..k - 1], ps[k - 1]);
    assert ps[..k - 1] + [ps[k - 1]] == ps;
    assert |data| == chunkSize * (k - 1) + |ps[k - 1].rows|;
    forall j | 0 <= j < k
      ensures 0 <= chunkSize * j <= Min(chunkSize * (j + 1), |data|)
      ensures ps[j].rows == data[chunkSize * j..Min(chunkSize * (j + 1), |data|)]
    {
      RowsOfPiece(ps, j);
      MulMonotone(chunkSize, 0, j);
      FullLength(ps[..j], chunkSize);
      assert chunkSize * j + chunkSize == chunkSize * (j + 1);
      if j < k - 1 {
        MulMonotone(chunkSize, j + 1, k - 1);
      }
    }
    forall j | 0 <= j < k
      ensures ps[j].rows == Span(data, chunkSize, j)
    {
    }
  }

  /** One piece of `ChunkSlices`, with its number. */
  lemma ChunkSliceAt(data: seq<Row>, chunkSize: int, header: Option<Row>, j: nat)
    requires chunkSize >= 1 && j < |Chunk(data, chunkSize, header)|
    ensures var p := Chunk(data, chunkSize, header)[j];
      p.number == j + 1 && p.rows == Span(data, chunkSize, j)
  {
    ChunkConserves(data, chunkSize, header);
    ChunkSlices(data, chunkSize, header);
  }

  /** The boundary law: with a positive chunk size, the data row at 0-based
      index `i` is written to piece `i / c + 1`, at position `i % c` among
      that piece's data rows. */
  lemma ChunkPlacesRow(data: seq<Row>, chunkSize: int, header: Option<Row>, i: nat)
    requires chunkSize >= 1 && i < |data|
    ensures var ps, j, t := Chunk(data, chunkSize, header), i / chunkSize, i % chunkSize;
      && j < |ps|
      && ps[j].number == j + 1
      && t < |ps[j].rows|
      && ps[j].rows[t] == data[i]
  {
    var ps := Chunk(data, chunkSize, header);
    var j, t := i / chunkSize, i % chunkSize;
    assert i == chunkSize * j + t;
    PieceOfRow(data, chunkSize, header, i);
    ChunkSliceAt(data, chunkSize, header, j);
    SpanAt(data, chunkSize, j, t);
  }

  /** The piece index `i / c` of a data row exists. */
  lemma PieceOfRow(data: seq<Row>, chunkSize: int, header: Option<Row>, i: nat)
    requires chunkSize >= 1 && i < |data|
    ensures i / chunkSize < |Chunk(data, chunkSize, header)|
  {
    var ps := Chunk(data, chunkSize, header);
    var j, t := i / chunkSize, i % chunkSize;
    assert i == chunkSize * j + t;
    ChunkConserves(data, chunkSize, header);
    ChunkPacked(data, chunkSize, header);
    var k := |ps|;
    FullLength(ps[..k - 1], chunkSize);
    DataRowsSnoc(ps[..k - 1], ps[k - 1]);
    assert ps[..k - 1] + [ps[k - 1]] == ps;
    assert |data| <= chunkSize * (k - 1) + chunkSize == chunkSize * k;
    if j >= k {
      MulMonotone(chunkSize, k, j);
      assert false;
    }
  }

  /** Position `t` of the span `j` is the data row `c * j + t`. */
  lemma SpanAt(data: seq<Row>, chunkSize: int, j: int, t: int)
    requires chunkSize >= 1 && j >= 0 && 0 <= t < chunkSize && chunkSize * j + t < |data|
    ensures t < |Span(data, chunkSize, j)|
    ensures Span(data, chunkSize, j)[t] == data[chunkSize * j + t]
  {
    MulMonotone(chunkSize, 0, j);
    assert chunkSize * j + chunkSize == chunkSize * (j + 1);
  }

  /** Exactly `chunkSize` rows fill one piece; one row more spills exactly
      that row into a second piece. */
  lemma ChunkBoundary(data: seq<Row>, chunkSize: int, header: Option<Row>)
    requires chunkSize >= 1
    ensures |data| == chunkSize ==>
      Chunk(data, chunkSize, header) == [Piece(1, header, data)]
    ensures |data| == chunkSize + 1 ==>
      Chunk(data, chunkSize, header) == [Piece(1, header, data[..chunkSize]), Piece(2, header, [data[chunkSize]])]
  {
    if |data| == chunkSize {
      ChunkOneFull(data, chunkSize, header);
    }
    if |data| == chunkSize + 1 {
      ChunkSpillsOne(data, chunkSize, header);
    }
  }

  /** `chunkSize` rows make a single full piece. */
  lemma ChunkOneFull(data: seq<Row>, chunkSize: int, header: Option<Row>)
    requires chunkSize >= 1 && |data| == chunkSize
    ensures Chunk(data, chunkSize, header) == [Piece(1, header, data)]
  {
    var ps := Chunk(data, chunkSize, header);
    ChunkConserves(data, chunkSize, header);
    ChunkCount(data, chunkSize, header);
    DivFromParts(|data| - 1, chunkSize, 0, chunkSize - 1);
    assert |ps| == 1;
    ChunkSliceAt(data, chunkSize, header, 0);
    assert chunkSize * 0 == 0 && chunkSize * (0 + 1) == chunkSize;
    assert ps[0].rows == data[0..chunkSize] == data;
    assert ps[0].header == header;
  }

  /** `chunkSize + 1` rows spill the last row alone into piece 2. */
  lemma ChunkSpillsOne(data: seq<Row>, chunkSize: int, header: Option<Row>)
    requires chunkSize >= 1 && |data| == chunkSize + 1
    ensures Chunk(data, chunkSize, header) == [Piece(1, header, data[..chunkSize]), Piece(2, header, [data[chunkSize]])]
  {
    var ps := Chunk(data, chunkSize, header);
    ChunkConserves(data, chunkSize, header);
    ChunkCount(data, chunkSize, header);
    DivFromParts(|data| - 1, chunkSize, 1, 0);
    assert |ps| == 2;
    ChunkSliceAt(data, chunkSize, header, 0);
    ChunkSliceAt(data, chunkSize, header, 1);
    assert chunkSize * 0 == 0 && chunkSize * (0 + 1) == chunkSize;
    assert chunkSize * 1 == chunkSize && chunkSize * (1 + 1) == chunkSize + chunkSize;
    assert ps[0].rows == data[0..chunkSize];
    assert ps[1].rows == data[chunkSize..chunkSize + 1] == [data[chunkSize]];
    assert ps[0].header == header && ps[1].header == header;
  }
}

=== FILE: coti.dfy ===
/** COTI/COTI.py: the command-line front end. It checks the arguments,
reads the source file, reports its record count and, for the `chunk`
operation, writes the file out in chunks of 5000 records.

The parsed arguments arrive as a `CliArgs` value and the records the CSV
reader yields for the source file as a parameter; the run's result is the
record count it reports and the files it writes.
 */
module Coti {
  import opened Results
  import opened Records
  import Text
  import Validator
  import Paths
  import CsvOps
  import Writing
  import Chunking

  /** The parsed arguments: each is absent or the text given on the command
      line. */
  datatype CliArgs = CliArgs(
    operation: Option<string>,
    file: Option<string>,
    chunkSize: Option<string>,
    encoding: Option<string>,
    delimiter: Option<string>)

  /** The chunk size `validateArgs` hands back: the fixed size once the
      `chunk` check has passed, the argument untouched otherwise. */
  datatype ChunkSetting = Fixed(size: int) | AsGiven(arg: Option<string>)

  /** The five values `validateArgs` returns. */
  datatype Settings = Settings(
    operation: string,
    file: string,
    chunkSize: ChunkSetting,
    encoding: string,
    delimiter: string)

  /** The operations the front end knows (`OPERATIONS`). */
  const Operations: seq<string> := ["chunk"]

  /** The size every chunk run uses, whatever `-chunksize` says. */
  const DefaultChunkSize: int := 5000

  const DefaultEncoding: string := "utf-8"

  const DefaultDelimiter: string := ","

  /** The operation passes both operation checks: it is not blank and its
      lower-cased form is a known operation. */
  predicate OperationAccepted(a: CliArgs) {
    !Validator.BlankOrNone(a.operation) && Text.Lower(a.operation.value) in Operations
  }

  /** The exact spelling that runs the chunking: the dispatch compares the
      operation as given, not its lower-cased form. */
  predicate ChunkRequested(a: CliArgs) {
    a.operation == Some("chunk")
  }

  /** `validateArgs`. The checks run in order and the first that fails ends
      the run: a blank operation, an unknown operation, a blank file, and
      (for the exact spelling `chunk` only) a chunk size that is not an
      integer. A chunk size that passes is then replaced by 5000. A blank
      encoding or delimiter falls back to `utf-8` or `,`. */
  function ValidateArgs(a: CliArgs): (r: Result<Settings>)
    ensures Validator.BlankOrNone(a.operation) ==> r == Err(OperationBlank)
    ensures !Validator.BlankOrNone(a.operation) && !OperationAccepted(a) ==> r == Err(OperationUnknown)
    ensures OperationAccepted(a) && Validator.BlankOrNone(a.file) ==> r == Err(FileBlank)
    ensures (OperationAccepted(a) && !Validator.BlankOrNone(a.file) && ChunkRequested(a) && !Validator.IsInt(a.chunkSize))
      ==> r == Err(ChunkSizeNotInt)
    ensures r.Ok? <==>
      && OperationAccepted(a)
      && !Validator.BlankOrNone(a.file)
      && (ChunkRequested(a) ==> Validator.IsInt(a.chunkSize))
    ensures r.Ok? ==>
      && a.operation == Some(r.value.operation)
      && a.file == Some(r.value.file)
      && r.value.chunkSize == (if ChunkRequested(a) then Fixed(DefaultChunkSize) else AsGiven(a.chunkSize))
      && r.value.encoding == (if Validator.BlankOrNone(a.encoding) then DefaultEncoding else a.encoding.value)
      && r.value.delimiter == (if Validator.BlankOrNone(a.delimiter) then DefaultDelimiter else a.delimiter.value)
  {
    if Validator.BlankOrNone(a.operation) then Err(OperationBlank)
    else if Text.Lower(a.operation.value) !in Operations then Err(OperationUnknown)
    else if Validator.BlankOrNone(a.file) then Err(FileBlank)
    else
      var operation := a.operation.value;
      var chunkSize :-
        if operation == "chunk" then
          if !Validator.IsInt(a.chunkSize) then Err(ChunkSizeNotInt) else Ok(Fixed(DefaultChunkSize))
        else Ok(AsGiven(a.chunkSize));
      var encoding := if Validator.BlankOrNone(a.encoding) then DefaultEncoding else a.encoding.value;
      var delimiter := if Validator.BlankOrNone(a.delimiter) then DefaultDelimiter else a.delimiter.value;
      Ok(Settings(operation, a.file.value, chunkSize, encoding, delimiter))
  }

  /** What a run leaves behind: the record count it reports and the files it
      writes. */
  datatype Outcome = Outcome(recordCount: nat, files: seq<Writing.OutputFile>)

  /** `main`: validate, read the source, count its records and, when the
      operation is exactly `chunk`, write the chunks with the header kept. */
  function Main(a: CliArgs, records: seq<Row>): (r: Result<Outcome>)
    ensures ValidateArgs(a).Err? ==> r == Err(ValidateArgs(a).fault)
    ensures ValidateArgs(a).Ok? && records == [] ==> r == Err(EmptySource)
    ensures r.Ok? ==> r.value.recordCount == |records| - 1
    ensures r.Ok? ==> (r.value.files != [] <==> ChunkRequested(a))
    ensures r.Ok? <==>
      && ValidateArgs(a).Ok? && records != []
      && (ChunkRequested(a) ==>
            var p := Paths.SplitSourcePath(a.file.value); Paths.PlainTemplate(p.name, p.extension))
    ensures r.Err? && ValidateArgs(a).Ok? && records != [] ==> r.fault == TemplateBadPercent
  {
    var s :- ValidateArgs(a);
    var f :- CsvOps.ReadFile(s.file, records);
    var count := CsvOps.GetCsvLength(f);
    if s.operation == "chunk" && s.chunkSize.Fixed? then
      var files :- CsvOps.WriteFileChunk(f, s.chunkSize.size, true);
      Ok(Outcome(count, files))
    else Ok(Outcome(count, []))
  }

  /** A chunk run with acceptable arguments reports the data-record count
      and writes the 5000-record chunks of the source: chunk `k` goes to the
      source's directory as `name(k)extension` and holds the source's header
      and then the data records `[5000 * (k - 1), 5000 * k)`, and together
      the chunks hold every data record in order. */
  lemma MainChunks(a: CliArgs, records: seq<Row>)
    requires ChunkRequested(a) && !Validator.BlankOrNone(a.file) && Validator.IsInt(a.chunkSize)
    requires |records| > 0
    requires var p := Paths.SplitSourcePath(a.file.value); Paths.PlainTemplate(p.name, p.extension)
    ensures var r := Main(a, records);
      var p := Paths.SplitSourcePath(a.file.value);
      var n := |records| - 1;
      && r.Ok?
      && r.value.recordCount == n
      && |r.value.files| == (if n == 0 then 1 else (n - 1) / DefaultChunkSize + 1)
      && (forall j | 0 <= j < |r.value.files| ::
            && r.value.files[j].directory == p.directory
            && r.value.files[j].name == Paths.OutputName(p.name, p.extension, j + 1)
            && r.value.files[j].lines == [records[0]] + Chunking.Span(records[1..], DefaultChunkSize, j))
      && Writing.Rejoin(r.value.files, true) == records[1..]
  {
    MainReadsThenChunks(a, records);
    CsvOps.ReadThenChunk(a.file.value, records, DefaultChunkSize);
  }

  /** Such a run reads the source and chunks it, headers kept, in pieces of
      5000 data records. */
  lemma MainReadsThenChunks(a: CliArgs, records: seq<Row>)
    requires ChunkRequested(a) && !Validator.BlankOrNone(a.file) && Validator.IsInt(a.chunkSize)
    requires |records| > 0
    requires var p := Paths.SplitSourcePath(a.file.value); Paths.PlainTemplate(p.name, p.extension)
    ensures var f := CsvOps.ReadFile(a.file.value, records).value;
      Main(a, records) == Ok(Outcome(|records| - 1, CsvOps.WriteFileChunk(f, DefaultChunkSize, true).value))
  {
    ChunkArgsValid(a);
    CsvOps.ReadFileLength(a.file.value, records);
  }

  /** Arguments with the exact spelling `chunk`, a file and an integer
      chunk size pass validation, and the chunk size becomes 5000. */
  lemma ChunkArgsValid(a: CliArgs)
    requires ChunkRequested(a) && !Validator.BlankOrNone(a.file) && Validator.IsInt(a.chunkSize)
    ensures var r := ValidateArgs(a);
      && r.Ok?
      && r.value.operation == "chunk" && r.value.file == a.file.value
      && r.value.chunkSize == Fixed(DefaultChunkSize)
  {
    Text.LowerToWord("chunk", "chunk");
    assert OperationAccepted(a);
  }

  /** The `-chunksize` value is checked and then thrown away: two runs that
      differ only in an integer chunk size do exactly the same thing. */
  lemma ChunkSizeIgnored(a: CliArgs, size: string, records: seq<Row>)
    requires Validator.IsInt(a.chunkSize) && Validator.IsInt(Some(size))
    ensures Main(a, records) == Main(a.(chunkSize := Some(size)), records)
  {
  }

  /** Any spelling whose lower case is `chunk` passes validation, but only
      the exact spelling writes chunks: `CHUNK`, or `chun` followed by the
      Kelvin sign, read the file, report the count and write nothing. */
  lemma OtherSpellingsWriteNothing(file: string, records: seq<Row>)
    requires !Validator.BlankOrNone(Some(file)) && |records| > 0
    ensures var r := Main(CliArgs(Some("CHUNK"), Some(file), None, None, None), records);
      r.Ok? && r.value == Outcome(|records| - 1, [])
    ensures var r := Main(CliArgs(Some("chun\U{212A}"), Some(file), None, None, None), records);
      r.Ok? && r.value == Outcome(|records| - 1, [])
  {
    var caps, kelvin := CliArgs(Some("CHUNK"), Some(file), None, None, None), CliArgs(Some("chun\U{212A}"), Some(file), None, None, None);
    assert OperationAccepted(caps) by {
      Text.LowerToWord("CHUNK", "chunk");
    }
    assert OperationAccepted(kelvin) by {
      Text.LowerToWord("chun\U{212A}", "chunk");
    }
    AcceptedWritesNothing(caps, records);
    AcceptedWritesNothing(kelvin, records);
  }

  /** An accepted operation other than the exact spelling `chunk` reports
      the count and writes nothing. */
  lemma AcceptedWritesNothing(a: CliArgs, records: seq<Row>)
    requires OperationAccepted(a) && !ChunkRequested(a) && !Validator.BlankOrNone(a.file) && |records| > 0
    ensures Main(a, records) == Ok(Outcome(|records| - 1, []))
  {
    assert ValidateArgs(a).Ok?;
  }

  /** The exact spelling with no `-chunksize` stops the run: `int(None)`
      fails the integer check. */
  lemma ChunkNeedsSize(file: string, records: seq<Row>)
    requires !Validator.BlankOrNone(Some(file))
    ensures Main(CliArgs(Some("chunk"), Some(file), None, None, None), records) == Err(ChunkSizeNotInt)
  {
    Text.LowerToWord("chunk", "chunk");
  }
}

=== FILE: csvops.dfy ===
/** COTI/CSVOps.py: the `CSVOps` object, which reads one source file into
memory and writes it back out in numbered chunks.

The object is modelled as an immutable `CsvFile`: the three cuts of the
source path taken by `readFile`, and the records it loaded.
 */
module CsvOps {
  import opened Results
  import opened Records
  import opened Writing
  import Paths
  import Chunking

  /** A `CSVOps` object after construction: where the source lives, and its
      contents. */
  datatype CsvFile = CsvFile(source: Paths.SourcePath, csv: CsvData)

  /** `CSVOps(source_file_path, encoding, delimiter)`, which runs
      `readFile`: cut the path into directory, name and extension, then load
      the records the CSV reader yields for the file. */
  function ReadFile(path: string, records: seq<Row>): (r: Result<CsvFile>)
    ensures r.Ok? <==> |records| > 0
    ensures r.Err? ==> r.fault == EmptySource
    ensures r.Ok? ==> r.value.source == Paths.SplitSourcePath(path)
    ensures r.Ok? ==> [r.value.csv.header] + r.value.csv.data == records
  {
    var d :- Load(records);
    Ok(CsvFile(Paths.SplitSourcePath(path), d))
  }

  /** `getCSVLength`: the number of data rows, the header not counted. */
  function GetCsvLength(f: CsvFile): (n: nat)
    ensures n == |f.csv.data|
  {
    Length(f.csv)
  }

  /** The count `getCSVLength` reports after a successful read is the number
      of records less the header. */
  lemma ReadFileLength(path: string, records: seq<Row>)
    requires |records| > 0
    ensures ReadFile(path, records).Ok?
    ensures GetCsvLength(ReadFile(path, records).value) == |records| - 1
  {
    LengthExcludesHeader(records);
  }

  /** `writeFileChunk(chunk_size, keep_header)`: the files written, each in
      the working directory under `name(k)extension`. */
  function WriteFileChunk(f: CsvFile, chunkSize: int, keepHeader: bool): (r: Result<seq<OutputFile>>)
    ensures r.Ok? <==> Paths.PlainTemplate(f.source.name, f.source.extension)
    ensures r.Ok? ==> |r.value| >= 1
  {
    var header := if keepHeader then Some(f.csv.header) else None;
    WriteChunks(f.source.directory, f.source.name, f.source.extension, header, f.csv.data, chunkSize)
  }

  /** Chunking a read file with a positive size: there are
      `max(1, ceil(n / c))` files for `n` data rows, file `k` holds the
      header and then the data rows `[c * (k - 1), c * k)`, and stripping the
      headers and concatenating the files gives back the data in order. */
  lemma ChunkLayout(f: CsvFile, chunkSize: int)
    requires chunkSize >= 1 && Paths.PlainTemplate(f.source.name, f.source.extension)
    ensures var r := WriteFileChunk(f, chunkSize, true);
      var n := |f.csv.data|;
      && r.Ok?
      && |r.value| == (if n == 0 then 1 else (n - 1) / chunkSize + 1)
      && (forall j | 0 <= j < |r.value| ::
            r.value[j].lines == [f.csv.header] + Chunking.Span(f.csv.data, chunkSize, j))
      && Rejoin(r.value, true) == f.csv.data
  {
    var p := f.source;
    var h := Some(f.csv.header);
    WriteChunksLayout(p.directory, p.name, p.extension, h, f.csv.data, chunkSize);
    WriteChunksRejoin(p.directory, p.name, p.extension, h, f.csv.data, chunkSize);
    assert HeaderLines(h) == [f.csv.header];
  }

  /** A successful read keeps the first record as the header and every
      later record, in order, as the data. */
  lemma ReadFileParts(path: string, records: seq<Row>)
    requires |records| > 0
    ensures ReadFile(path, records)
      == Ok(CsvFile(Paths.SplitSourcePath(path), CsvData(records[0], records[1..], |records| > 1)))
  {
    var f := ReadFile(path, records).value;
    assert [f.csv.header] + f.csv.data == records;
    assert f.csv.data == records[1..];
  }

  /** Chunking a read file puts every file in the source's directory under
      the name the template gives its 1-based position. */
  lemma ChunkNames(f: CsvFile, chunkSize: int, keepHeader: bool)
    requires Paths.PlainTemplate(f.source.name, f.source.extension)
    ensures var r := WriteFileChunk(f, chunkSize, keepHeader);
      && r.Ok?
      && forall j | 0 <= j < |r.value| ::
           && r.value[j].directory == f.source.directory
           && r.value[j].name == Paths.OutputName(f.source.name, f.source.extension, j + 1)
  {
    var p := f.source;
    var h := if keepHeader then Some(f.csv.header) else None;
    WriteChunksNames(p.directory, p.name, p.extension, h, f.csv.data, chunkSize);
  }

  /** Reading a file and chunking it with a positive size `c`: file `k`
      goes to the source's directory as `name(k)extension` and holds the
      first record as its header and then the records `[c * (k - 1) + 1,
      c * k + 1)`; there are `max(1, ceil(n / c))` files for the `n` records
      after the header, and stripping the headers gives those records back
      in order. */
  lemma ReadThenChunk(path: string, records: seq<Row>, chunkSize: int)
    requires |records| > 0 && chunkSize >= 1
    requires var p := Paths.SplitSourcePath(path); Paths.PlainTemplate(p.name, p.extension)
    ensures var f := ReadFile(path, records).value;
      var p := Paths.SplitSourcePath(path);
      var r := WriteFileChunk(f, chunkSize, true);
      var n := |records| - 1;
      && f.csv.header == records[0]
      && r.Ok?
      && |r.value| == (if n == 0 then 1 else (n - 1) / chunkSize + 1)
      && (forall j | 0 <= j < |r.value| ::
            && r.value[j].directory == p.directory
            && r.value[j].name == Paths.OutputName(p.name, p.extension, j + 1)
            && r.value[j].lines == [records[0]] + Chunking.Span(records[1..], chunkSize, j))
      && Rejoin(r.value, true) == records[1..]
  {
    ReadFileParts(path, records);
    var f := ReadFile(path, records).value;
    ChunkLayout(f, chunkSize);
    ChunkNames(f, chunkSize, true);
  }

  /** Without the header, the files hold only data rows and still give back
      every data row in order. */
  lemma ChunkWithoutHeader(f: CsvFile, chunkSize: int)
    requires Paths.PlainTemplate(f.source.name, f.source.extension)
    ensures var r := WriteFileChunk(f, chunkSize, false);
      r.Ok? && Rejoin(r.value, false) == f.csv.data
  {
    var p := f.source;
    WriteChunksRejoin(p.directory, p.name, p.extension, None, f.csv.data, chunkSize);
  }
}

=== FILE: etlsplitter.dfy ===
/** Prototypes/FileSplitter2-withETL.py: the splitter with one
transformation. Before a data row is written, its document number (field
3) gets the installment id (field 15) appended after a hyphen. The header is
written untouched.

The records the CSV reader yields for the source are a parameter; an
empty list stands for an empty file.
 */
module EtlSplitter {
  import opened Results
  import opened Records
  import opened Writing
  import Integers
  import Paths
  import Chunking

  /** The field holding the document number. */
  const DocumentField: nat := 3

  /** The field holding the installment id. */
  const InstallmentField: nat := 15

  /** `updateDocumentNo`: `None` where reading `input[3]` or `input[15]`
      raises `IndexError`. */
  function UpdateDocumentNo(row: Row): (r: Option<Row>)
    ensures r.Some? <==> |row| > InstallmentField
    ensures r.Some? ==> |r.value| == |row|
    ensures r.Some? ==> r.value[DocumentField] == row[DocumentField] + "-" + row[InstallmentField]
    ensures r.Some? ==> forall k | 0 <= k < |row| && k != DocumentField :: r.value[k] == row[k]
  {
    if |row| <= InstallmentField then None
    else Some(row[DocumentField := row[DocumentField] + "-" + row[InstallmentField]])
  }

  /** The update can be undone: cutting the appended `-` and installment id
      off the document number gives back the row as read. */
  lemma UpdateDocumentNoUndo(row: Row)
    requires |row| > InstallmentField
    ensures var u := UpdateDocumentNo(row).value;
      var doc := u[DocumentField];
      && |doc| == |row[DocumentField]| + 1 + |row[InstallmentField]|
      && doc[|row[DocumentField]|..] == "-" + row[InstallmentField]
      && u[DocumentField := doc[..|row[DocumentField]|]] == row
  {
    var u := UpdateDocumentNo(row).value;
    var doc := u[DocumentField];
    assert doc[..|row[DocumentField]|] == row[DocumentField];
    assert u[DocumentField := doc[..|row[DocumentField]|]] == row;
  }

  /** Every row has an installment field. */
  predicate LongEnough(rows: seq<Row>) {
    forall i | 0 <= i < |rows| :: |rows[i]| > InstallmentField
  }

  /** `f` reports row `f.row` as the first too short for the update. */
  predicate FirstTooShort(rows: seq<Row>, f: Fault) {
    && f.RecordTooShort?
    && f.row < |rows|
    && |rows[f.row]| <= InstallmentField
    && forall i | 0 <= i < f.row :: |rows[i]| > InstallmentField
  }

  /** The loop's transformation over the data rows, in order: the first
      row too short for the update stops the run. */
  function UpdateAll(rows: seq<Row>): (r: Result<seq<Row>>)
    ensures r.Ok? <==> LongEnough(rows)
    ensures r.Ok? ==> |r.value| == |rows|
    ensures r.Ok? ==> forall i | 0 <= i < |rows| :: UpdateDocumentNo(rows[i]) == Some(r.value[i])
    ensures r.Err? ==> FirstTooShort(rows, r.fault)
    decreases |rows|
  {
    if |rows| == 0 then Ok([])
    else
      var i := |rows| - 1;
      var done :- UpdateAll(rows[..i]);
      match UpdateDocumentNo(rows[i])
      case None => Err(RecordTooShort(i))
      case Some(u) => Ok(done + [u])
  }

  /** `split(filehandler, row_limit, output_name_template, output_path,
      keep_headers)`: the template is formatted for piece 1 first; then,
      when headers are kept, the first record is taken verbatim as the
      header; then every remaining record is updated and written through
      the chunking loop. */
  function Split(records: seq<Row>, rowLimit: int, directory: string, name: string,
                 extension: string, keepHeaders: bool): (r: Result<seq<OutputFile>>)
    ensures !Paths.PlainTemplate(name, extension) ==> r == Err(TemplateBadPercent)
    ensures Paths.PlainTemplate(name, extension) && keepHeaders && records == [] ==> r == Err(EmptySource)
  {
    if !Paths.PlainTemplate(name, extension) then Err(TemplateBadPercent)
    else if keepHeaders then
      if |records| == 0 then Err(EmptySource)
      else
        var data :- UpdateAll(records[1..]);
        WriteChunks(directory, name, extension, Some(records[0]), data, rowLimit)
    else
      var data :- UpdateAll(records);
      WriteChunks(directory, name, extension, None, data, rowLimit)
  }

  /** With headers kept and a usable template, the split succeeds exactly
      when every data row is long enough. Then each piece starts with the
      source's header unchanged, and the pieces' data lines, concatenated,
      are the updated data rows in order; otherwise the run stops at the
      first short data row (counting from 0 after the header). */
  lemma SplitWithHeader(records: seq<Row>, rowLimit: int, directory: string, name: string, extension: string)
    requires Paths.PlainTemplate(name, extension) && |records| > 0
    ensures var r := Split(records, rowLimit, directory, name, extension, true);
      var data := records[1..];
      && (r.Ok? <==> forall i | 0 <= i < |data| :: |data[i]| > InstallmentField)
      && (r.Err? ==> r.fault.RecordTooShort? && r.fault.row < |data| && |data[r.fault.row]| <= InstallmentField)
      && (r.Ok? ==>
            && (forall j | 0 <= j < |r.value| :: |r.value[j].lines| > 0 && r.value[j].lines[0] == records[0])
            && var body := Rejoin(r.value, true);
               |body| == |data| && forall i | 0 <= i < |data| :: UpdateDocumentNo(data[i]) == Some(body[i]))
  {
    var u := UpdateAll(records[1..]);
    if u.Ok? {
      WriteChunksRejoin(directory, name, extension, Some(records[0]), u.value, rowLimit);
      WriteChunksNames(directory, name, extension, Some(records[0]), u.value, rowLimit);
    }
  }

  /** Without headers and with a usable template, the split succeeds exactly
      when every record is long enough. Then the pieces are named
      `name(k)extension` in the directory, and their lines, concatenated,
      are the updated records in order, the first one included; otherwise
      the run stops at the first short record. */
  lemma SplitWithoutHeader(records: seq<Row>, rowLimit: int, directory: string, name: string, extension: string)
    requires Paths.PlainTemplate(name, extension)
    ensures var r := Split(records, rowLimit, directory, name, extension, false);
      && (r.Ok? <==> LongEnough(records))
      && (r.Err? ==> FirstTooShort(records, r.fault))
      && (r.Ok? ==>
            && (forall j | 0 <= j < |r.value| ::
                  && r.value[j].directory == directory
                  && r.value[j].name == Paths.OutputName(name, extension, j + 1))
            && Rejoin(r.value, false) == UpdateAll(records).value)
  {
    var u := UpdateAll(records);
    if u.Ok? {
      assert Split(records, rowLimit, directory, name, extension, false)
        == WriteChunks(directory, name, extension, None, u.value, rowLimit);
      WriteChunksRejoin(directory, name, extension, None, u.value, rowLimit);
      WriteChunksNames(directory, name, extension, None, u.value, rowLimit);
    }
  }

  /** `int(args.chunksize)` with nothing caught: an absent or non-integer
      argument stops the run. */
  function RowLimit(arg: Option<string>): (r: Result<int>)
    ensures r.Ok? <==> arg.Some? && Integers.ParseInt(arg.value).Some?
    ensures r.Ok? ==> Integers.ParseInt(arg.value) == Some(r.value)
    ensures r.Err? ==> r.fault == ChunkSizeNotInt
  {
    match arg
    case None => Err(ChunkSizeNotInt)
    case Some(s) =>
      match Integers.ParseInt(s)
      case Some(n) => Ok(n)
      case None => Err(ChunkSizeNotInt)
  }

  /** The command-line arguments of the script. */
  datatype SplitterArgs = SplitterArgs(file: Option<string>, chunkSize: Option<string>)

  /** The script body: cut the path, count the lines, read the row limit,
      then split with headers kept into `name(k).csv` pieces in the source's
      directory. */
  function Run(a: SplitterArgs, records: seq<Row>): (r: Result<seq<OutputFile>>)
    ensures a.file.None? ==> r == Err(FileMissing)
    ensures a.file.Some? && records == [] ==> r == Err(NothingToCount)
    ensures a.file.Some? && records != [] && RowLimit(a.chunkSize).Err? ==> r == Err(ChunkSizeNotInt)
    ensures r.Ok? <==>
      && a.file.Some? && records != [] && RowLimit(a.chunkSize).Ok?
      && Paths.PlainTemplate(Paths.SplitSourcePath(a.file.value).name, Paths.TargetExtension)
      && LongEnough(records[1..])
    ensures r.Err? && a.file.Some? && records != [] && RowLimit(a.chunkSize).Ok? ==>
      if Paths.PlainTemplate(Paths.SplitSourcePath(a.file.value).name, Paths.TargetExtension)
      then FirstTooShort(records[1..], r.fault)
      else r.fault == TemplateBadPercent
  {
    match a.file
    case None => Err(FileMissing)
    case Some(path) =>
      if |records| == 0 then Err(NothingToCount)
      else
        var limit :- RowLimit(a.chunkSize);
        var p := Paths.SplitSourcePath(path);
        Split(records, limit, p.directory, p.name, Paths.TargetExtension, true)
  }

  /** With headers kept, a usable template and every data row long enough,
      the pieces are named `name(k)extension` in the directory and start
      with the header, and stripped of their headers they hold the updated
      data rows in order. */
  lemma SplitWrites(records: seq<Row>, rowLimit: int, directory: string, name: string, extension: string)
    requires Paths.PlainTemplate(name, extension) && |records| > 0 && LongEnough(records[1..])
    ensures var r := Split(records, rowLimit, directory, name, extension, true);
      && r.Ok?
      && (forall j | 0 <= j < |r.value| ::
            && r.value[j].directory == directory
            && r.value[j].name == Paths.OutputName(name, extension, j + 1)
            && |r.value[j].lines| > 0 && r.value[j].lines[0] == records[0])
      && Rejoin(r.value, true) == UpdateAll(records[1..]).value
  {
    var h := Some(records[0]);
    var updated := UpdateAll(records[1..]).value;
    assert Split(records, rowLimit, directory, name, extension, true)
      == WriteChunks(directory, name, extension, h, updated, rowLimit);
    WriteChunksRejoin(directory, name, extension, h, updated, rowLimit);
    WriteChunksNames(directory, name, extension, h, updated, rowLimit);
  }

  /** With a positive row limit as well, piece `j + 1` holds the header and
      then the updated rows `[c * j, c * (j + 1))`. */
  lemma SplitLayout(records: seq<Row>, rowLimit: int, directory: string, name: string, extension: string)
    requires Paths.PlainTemplate(name, extension) && |records| > 0 && LongEnough(records[1..])
    requires rowLimit >= 1
    ensures var r := Split(records, rowLimit, directory, name, extension, true);
      var updated := UpdateAll(records[1..]).value;
      && r.Ok?
      && |r.value| == (if |updated| == 0 then 1 else (|updated| - 1) / rowLimit + 1)
      && forall j | 0 <= j < |r.value| :: r.value[j].lines == [records[0]] + Chunking.Span(updated, rowLimit, j)
  {
    var h := Some(records[0]);
    var updated := UpdateAll(records[1..]).value;
    assert Split(records, rowLimit, directory, name, extension, true)
      == WriteChunks(directory, name, extension, h, updated, rowLimit);
    WriteChunksLayout(directory, name, extension, h, updated, rowLimit);
  }

  /** A run with a `-file`, an integer `-chunksize` and a usable template
      on a source whose data rows all have an installment field writes
      `name(k).csv` pieces in the source's directory, each starting with the
      header; stripped of their headers they hold the updated data rows in
      order, and with a positive row limit `c` piece `j + 1` holds the
      updated rows `[c * j, c * (j + 1))`. */
  lemma RunWrites(path: string, chunkSize: Option<string>, records: seq<Row>)
    requires |records| > 0 && RowLimit(chunkSize).Ok?
    requires Paths.PlainTemplate(Paths.SplitSourcePath(path).name, Paths.TargetExtension)
    requires LongEnough(records[1..])
    ensures var r := Run(SplitterArgs(Some(path), chunkSize), records);
      var p, c := Paths.SplitSourcePath(path), RowLimit(chunkSize).value;
      var updated := UpdateAll(records[1..]).value;
      && r.Ok?
      && (forall j | 0 <= j < |r.value| ::
            && r.value[j].directory == p.directory
            && r.value[j].name == Paths.OutputName(p.name, Paths.TargetExtension, j + 1)
            && |r.value[j].lines| > 0 && r.value[j].lines[0] == records[0])
      && Rejoin(r.value, true) == updated
      && (c >= 1 ==>
            && |r.value| == (if |updated| == 0 then 1 else (|updated| - 1) / c + 1)
            && forall j | 0 <= j < |r.value| :: r.value[j].lines == [records[0]] + Chunking.Span(updated, c, j))
  {
    var p, c := Paths.SplitSourcePath(path), RowLimit(chunkSize).value;
    assert Run(SplitterArgs(Some(path), chunkSize), records)
      == Split(records, c, p.directory, p.name, Paths.TargetExtension, true);
    SplitWrites(records, c, p.directory, p.name, Paths.TargetExtension);
    if c >= 1 {
      SplitLayout(records, c, p.directory, p.name, Paths.TargetExtension);
    }
  }

  /** Unlike the other splitter, this one has no fallback row limit. */
  lemma RunNeedsChunkSize(path: string, records: seq<Row>)
    requires |records| > 0
    ensures Run(SplitterArgs(Some(path), None), records) == Err(ChunkSizeNotInt)
    ensures Run(SplitterArgs(Some(path), Some("ten")), records) == Err(ChunkSizeNotInt)
  {
    assert Integers.TrimStart("ten") == "ten" && Integers.TrimEnd("ten") == "ten";
  }
}

=== FILE: fieldsplitter.dfy ===
/** Prototypes/Field_2_Row_Splitter.py: turns a list held in one field into
one row per list item, keeping the other fields.

A data row whose chosen field contains the field delimiter is "split": the
field is cut at whitespace (`str.split()` with no separator; the field
delimiter only decides whether a row is split, it is not where the field
is cut), and one row is written per token, equal to the input row with the
field replaced by the token. Other rows are written unchanged when
`splitfieldonly` is `no` and dropped otherwise. Everything goes to a single
output file, piece 1 of the name template.
 */
module FieldSplitter {
  import opened Results
  import opened Records
  import opened Writing
  import Text
  import Integers
  import Paths

  // ---------------------------------------------------------------------
  // One row
  // ---------------------------------------------------------------------

  /** Python's index into a list of length `n`: a negative index counts from
      the end; `None` where it raises `IndexError`. */
  function ResolveIndex(k: int, n: nat): (r: Option<nat>)
    ensures r.Some? <==> -(n as int) <= k < n
    ensures r.Some? ==> r.value < n && (r.value == k || r.value == k + n)
  {
    if 0 <= k < n then Some(k)
    else if -(n as int) <= k < 0 then Some(k + n)
    else None
  }

  /** `isFieldSplit`: the field holds the field delimiter; `None` where the
      index is out of range. */
  function IsFieldSplit(row: Row, field: int, fieldDelimiter: string): (r: Option<bool>)
    ensures r.Some? <==> ResolveIndex(field, |row|).Some?
    ensures r.Some? ==>
      (r.value <==> exists i :: Text.OccursAt(row[ResolveIndex(field, |row|).value], fieldDelimiter, i))
  {
    match ResolveIndex(field, |row|)
    case None => None
    case Some(idx) =>
      Text.ContainsIffOccurs(row[idx], fieldDelimiter);
      Some(Text.Contains(row[idx], fieldDelimiter))
  }

  /** `field2RowSplitter`: one row per whitespace-separated token of the
      field, each the input row with the field replaced by that token. */
  function Explode(row: Row, idx: nat): (out: seq<Row>)
    requires idx < |row|
    ensures |out| == |Text.Words(row[idx])|
    ensures forall t | 0 <= t < |out| ::
      && |out[t]| == |row|
      && out[t][idx] == Text.Words(row[idx])[t]
      && Text.IsWord(out[t][idx])
      && (forall k | 0 <= k < |row| && k != idx :: out[t][k] == row[k])
  {
    var tokens := Text.Words(row[idx]);
    seq(|tokens|, t requires 0 <= t < |tokens| => row[idx := tokens[t]])
  }

  /** The tokens written into the field, put back together, are exactly the
      field's non-whitespace characters; joined by single spaces they split
      into the same tokens again. */
  lemma ExplodeKeepsText(row: Row, idx: nat)
    requires idx < |row|
    ensures var out := Explode(row, idx);
      var items := seq(|out|, t requires 0 <= t < |out| => out[t][idx]);
      && Text.Concat(items) == Text.NonSpace(row[idx])
      && Text.Words(Text.JoinWords(items)) == items
  {
    var out := Explode(row, idx);
    var items := seq(|out|, t requires 0 <= t < |out| => out[t][idx]);
    assert items == Text.Words(row[idx]);
    Text.WordsKeepText(row[idx]);
    Text.WordsOfJoin(items);
  }

  // ---------------------------------------------------------------------
  // The loop over the data rows
  // ---------------------------------------------------------------------

  /** Every row's field index is in range. */
  predicate InRange(data: seq<Row>, field: int) {
    forall i | 0 <= i < |data| :: ResolveIndex(field, |data[i]|).Some?
  }

  /** `f` reports row `f.row` as the first whose field index is out of
      range. */
  predicate FirstOutOfRange(data: seq<Row>, field: int, f: Fault) {
    && f.FieldIndexOutOfRange?
    && f.row < |data|
    && ResolveIndex(field, |data[f.row]|).None?
    && forall i | 0 <= i < f.row :: ResolveIndex(field, |data[i]|).Some?
  }

  /** What the loop writes for one row: its explosion when the field holds
      the delimiter, the row itself in `no` mode, nothing otherwise. A row
      whose index is out of range, where the loop stops, adds nothing. */
  function RowOut(row: Row, field: int, fieldDelimiter: string, keepUnsplit: bool): seq<Row> {
    match ResolveIndex(field, |row|)
    case None => []
    case Some(idx) =>
      if IsFieldSplit(row, field, fieldDelimiter) == Some(true) then Explode(row, idx)
      else if keepUnsplit then [row]
      else []
  }

  /** Lists of rows written one after another. */
  function Flatten(parts: seq<seq<Row>>): seq<Row> {
    if |parts| == 0 then [] else parts[0] + Flatten(parts[1..])
  }

  /** A list added at the end is written last. */
  lemma {:induction false} FlattenSnoc(parts: seq<seq<Row>>, last: seq<Row>)
    ensures Flatten(parts + [last]) == Flatten(parts) + last
    decreases |parts|
  {
    if |parts| == 0 {
      assert parts + [last] == [last] && [last][1..] == [];
    } else {
      assert (parts + [last])[1..] == parts[1..] + [last];
      FlattenSnoc(parts[1..], last);
    }
  }

  /** The output of each row, in row order. */
  function Outputs(data: seq<Row>, field: int, fieldDelimiter: string, keepUnsplit: bool): (parts: seq<seq<Row>>)
    ensures |parts| == |data|
  {
    seq(|data|, i requires 0 <= i < |data| => RowOut(data[i], field, fieldDelimiter, keepUnsplit))
  }

  /** The rows written for the data, row by row from the first. */
  function Expand(data: seq<Row>, field: int, fieldDelimiter: string, keepUnsplit: bool): seq<Row> {
    Flatten(Outputs(data, field, fieldDelimiter, keepUnsplit))
  }

  /** The first row's output comes first. */
  lemma ExpandCons(data: seq<Row>, field: int, fieldDelimiter: string, keepUnsplit: bool)
    requires |data| > 0
    ensures Expand(data, field, fieldDelimiter, keepUnsplit)
      == RowOut(data[0], field, fieldDelimiter, keepUnsplit) + Expand(data[1..], field, fieldDelimiter, keepUnsplit)
  {
    var parts := Outputs(data, field, fieldDelimiter, keepUnsplit);
    assert parts[1..] == Outputs(data[1..], field, fieldDelimiter, keepUnsplit);
  }

  /** The number of rows whose field holds the delimiter. */
  function CountSplit(data: seq<Row>, field: int, fieldDelimiter: string): (n: nat)
    ensures n <= |data|
  {
    if |data| == 0 then 0
    else if IsFieldSplit(data[0], field, fieldDelimiter) == Some(true) then 1 + CountSplit(data[1..], field, fieldDelimiter)
    else CountSplit(data[1..], field, fieldDelimiter)
  }

  /** Every row exploded, one after another (a row whose index is out of
      range adds nothing). */
  function ExplodeAll(data: seq<Row>, field: int): seq<Row> {
    if |data| == 0 then []
    else
      var here := match ResolveIndex(field, |data[0]|)
        case None => []
        case Some(idx) => Explode(data[0], idx);
      here + ExplodeAll(data[1..], field)
  }

  /** Every row of a longer list is in range, so every row of its prefix
      and its last row are. */
  lemma InRangeSnoc(data: seq<Row>, x: Row, field: int)
    requires InRange(data + [x], field)
    ensures InRange(data, field) && ResolveIndex(field, |x|).Some?
  {
    assert forall i | 0 <= i < |data| :: (data + [x])[i] == data[i];
    assert (data + [x])[|data|] == x;
  }

  /** The rows written for one more row end with that row's output. */
  lemma ExpandRowsSnoc(data: seq<Row>, x: Row, field: int, fieldDelimiter: string, keepUnsplit: bool)
    ensures Expand(data + [x], field, fieldDelimiter, keepUnsplit)
      == Expand(data, field, fieldDelimiter, keepUnsplit) + RowOut(x, field, fieldDelimiter, keepUnsplit)
  {
    var parts := Outputs(data, field, fieldDelimiter, keepUnsplit);
    var last := RowOut(x, field, fieldDelimiter, keepUnsplit);
    assert Outputs(data + [x], field, fieldDelimiter, keepUnsplit) == parts + [last];
    FlattenSnoc(parts, last);
  }

  /** The count for one more row grows by one exactly when that row is
      split. */
  lemma {:induction false} CountSplitSnoc(data: seq<Row>, x: Row, field: int, fieldDelimiter: string)
    ensures CountSplit(data + [x], field, fieldDelimiter)
      == CountSplit(data, field, fieldDelimiter) + (if IsFieldSplit(x, field, fieldDelimiter) == Some(true) then 1 else 0)
    decreases |data|
  {
    if |data| == 0 {
      assert data + [x] == [x] && [x][1..] == [];
    } else {
      var rest := data[1..];
      CountSplitSnoc(rest, x, field, fieldDelimiter);
      assert (data + [x])[0] == data[0] && (data + [x])[1..] == rest + [x];
    }
  }

  /** A row added at the end adds its own output and its own count at the
      end. */
  lemma ExpandSnoc(data: seq<Row>, x: Row, field: int, fieldDelimiter: string, keepUnsplit: bool)
    requires InRange(data + [x], field)
    ensures InRange(data, field) && ResolveIndex(field, |x|).Some?
    ensures Expand(data + [x], field, fieldDelimiter, keepUnsplit)
      == Expand(data, field, fieldDelimiter, keepUnsplit) + RowOut(x, field, fieldDelimiter, keepUnsplit)
    ensures CountSplit(data + [x], field, fieldDelimiter)
      == CountSplit(data, field, fieldDelimiter) + (if IsFieldSplit(x, field, fieldDelimiter) == Some(true) then 1 else 0)
  {
    InRangeSnoc(data, x, field);
    ExpandRowsSnoc(data, x, field, fieldDelimiter, keepUnsplit);
    CountSplitSnoc(data, x, field, fieldDelimiter);
  }

  /** The rows written and the two counters the loop reports. */
  datatype Tally = Tally(rows: seq<Row>, split: nat, notSplit: nat)

  /** The loop of `split` over the data rows: the first row whose field
      index is out of range stops the run. */
  function SplitRows(data: seq<Row>, field: int, fieldDelimiter: string, keepUnsplit: bool): (r: Result<Tally>)
    ensures r.Ok? <==> InRange(data, field)
    ensures r.Err? ==> FirstOutOfRange(data, field, r.fault)
    ensures r.Ok? ==> r.value.split + r.value.notSplit <= |data|
    ensures r.Ok? && keepUnsplit ==> r.value.split + r.value.notSplit == |data|
    ensures r.Ok? && !keepUnsplit ==> r.value.notSplit == 0
    decreases |data|
  {
    if |data| == 0 then Ok(Tally([], 0, 0))
    else
      var i := |data| - 1;
      var t :- SplitRows(data[..i], field, fieldDelimiter, keepUnsplit);
      var row := data[i];
      match ResolveIndex(field, |row|)
      case None => Err(FieldIndexOutOfRange(i))
      case Some(idx) =>
        if Text.Contains(row[idx], fieldDelimiter) then
          Ok(Tally(t.rows + Explode(row, idx), t.split + 1, t.notSplit))
        else if keepUnsplit then
          Ok(Tally(t.rows + [row], t.split, t.notSplit + 1))
        else
          Ok(t)
  }

  /** The loop writes, in order, each row's explosion when its field holds
      the delimiter and the row itself in `no` mode; `split` counts the rows
      holding the delimiter and `notSplit` the others, in `no` mode only. */
  lemma {:induction false} SplitRowsWrites(data: seq<Row>, field: int, fieldDelimiter: string, keepUnsplit: bool)
    requires InRange(data, field)
    ensures var r := SplitRows(data, field, fieldDelimiter, keepUnsplit);
      var n := CountSplit(data, field, fieldDelimiter);
      && r.Ok?
      && r.value.rows == Expand(data, field, fieldDelimiter, keepUnsplit)
      && r.value.split == n
      && r.value.notSplit == (if keepUnsplit then |data| - n else 0)
    decreases |data|
  {
    if |data| > 0 {
      var i := |data| - 1;
      assert data[..i] + [data[i]] == data;
      ExpandSnoc(data[..i], data[i], field, fieldDelimiter, keepUnsplit);
      SplitRowsWrites(data[..i], field, fieldDelimiter, keepUnsplit);
    }
  }

  /** No row holds the delimiter: with `splitfieldonly` `no` the data passes
      through unchanged, and with `yes` nothing is written. */
  lemma {:induction false} SplitRowsWithoutDelimiter(data: seq<Row>, field: int, fieldDelimiter: string, keepUnsplit: bool)
    requires forall i | 0 <= i < |data| ::
      && ResolveIndex(field, |data[i]|).Some?
      && !Text.Contains(data[i][ResolveIndex(field, |data[i]|).value], fieldDelimiter)
    ensures var r := SplitRows(data, field, fieldDelimiter, keepUnsplit);
      r.Ok? && r.value == Tally(if keepUnsplit then data else [], 0, if keepUnsplit then |data| else 0)
    decreases |data|
  {
    if |data| > 0 {
      var i := |data| - 1;
      SplitRowsWithoutDelimiter(data[..i], field, fieldDelimiter, keepUnsplit);
      assert data[..i] + [data[i]] == data;
    }
  }

  /** Where every row holds the delimiter, the loop's output is the rows'
      explosions one after another. */
  lemma {:induction false} ExpandAllDelimited(data: seq<Row>, field: int, fieldDelimiter: string, keepUnsplit: bool)
    requires forall i | 0 <= i < |data| ::
      && ResolveIndex(field, |data[i]|).Some?
      && Text.Contains(data[i][ResolveIndex(field, |data[i]|).value], fieldDelimiter)
    ensures InRange(data, field)
    ensures Expand(data, field, fieldDelimiter, keepUnsplit) == ExplodeAll(data, field)
    ensures CountSplit(data, field, fieldDelimiter) == |data|
    decreases |data|
  {
    if |data| > 0 {
      assert forall i | 0 <= i < |data| - 1 :: data[1..][i] == data[i + 1];
      ExpandAllDelimited(data[1..], field, fieldDelimiter, keepUnsplit);
      ExpandCons(data, field, fieldDelimiter, keepUnsplit);
    }
  }

  /** Every row holds the delimiter: the output is the rows exploded one
      after another, and every row counts as split, whatever
      `splitfieldonly` says. */
  lemma SplitRowsAllDelimited(data: seq<Row>, field: int, fieldDelimiter: string, keepUnsplit: bool)
    requires forall i | 0 <= i < |data| ::
      && ResolveIndex(field, |data[i]|).Some?
      && Text.Contains(data[i][ResolveIndex(field, |data[i]|).value], fieldDelimiter)
    ensures var r := SplitRows(data, field, fieldDelimiter, keepUnsplit);
      && r.Ok? && r.value.split == |data| && r.value.notSplit == 0
      && r.value.rows == ExplodeAll(data, field)
      && |r.value.rows| == TokenCount(data, field)
  {
    ExpandAllDelimited(data, field, fieldDelimiter, keepUnsplit);
    SplitRowsWrites(data, field, fieldDelimiter, keepUnsplit);
    ExplodeAllTokens(data, field);
  }

  /** The explosions hold one row per token. */
  lemma {:induction false} ExplodeAllTokens(data: seq<Row>, field: int)
    requires InRange(data, field)
    ensures |ExplodeAll(data, field)| == TokenCount(data, field)
    decreases |data|
  {
    if |data| > 0 {
      assert forall i | 0 <= i < |data| - 1 :: data[1..][i] == data[i + 1];
      ExplodeAllTokens(data[1..], field);
    }
  }

  /** The number of whitespace tokens in the chosen field, summed over the
      rows. */
  function TokenCount(data: seq<Row>, field: int): nat
    requires InRange(data, field)
  {
    if |data| == 0 then 0
    else |Text.Words(data[0][ResolveIndex(field, |data[0]|).value])| + TokenCount(data[1..], field)
  }

  /** The delimiter decides whether a row is split but is not where it is
      cut: with `;` as the delimiter, the field `a;b` stays whole and the row
      is written once, unchanged, while `a b` (which lacks the delimiter) is
      kept only in `no` mode. */
  lemma DelimiterDoesNotCut()
    ensures var r := SplitRows([["a;b", "x"]], 0, ";", false);
      r.Ok? && r.value == Tally([["a;b", "x"]], 1, 0)
    ensures var r := SplitRows([["a b", "x"]], 0, ";", false);
      r.Ok? && r.value == Tally([], 0, 0)
  {
    DelimitedRowKept();
    UndelimitedRowDropped();
  }

  /** The row `["a;b", "x"]` is split on `;` into itself alone. */
  lemma DelimitedRowKept()
    ensures var r := SplitRows([["a;b", "x"]], 0, ";", false);
      r.Ok? && r.value == Tally([["a;b", "x"]], 1, 0)
  {
    var row: Row := ["a;b", "x"];
    assert Text.Contains("a;b", ";") by {
      assert "a;b"[1..] == ";b" && ";b"[..1] == ";";
    }
    assert Explode(row, 0) == [row] by {
      Text.SingleWord("a;b");
      assert row[0 := "a;b"] == row;
    }
    assert [row][..0] == [];
  }

  /** The row `["a b", "x"]` lacks `;` and is dropped in `yes` mode. */
  lemma UndelimitedRowDropped()
    ensures var r := SplitRows([["a b", "x"]], 0, ";", false);
      r.Ok? && r.value == Tally([], 0, 0)
  {
    var row: Row := ["a b", "x"];
    assert !Text.Contains("a b", ";") by {
      assert "a b"[1..] == " b" && " b"[1..] == "b" && "b"[1..] == "";
      assert "a b"[..1] == "a" && " b"[..1] == " " && "b"[..1] == "b";
      assert !Text.Contains("", ";");
      assert !Text.Contains("b", ";");
      assert !Text.Contains(" b", ";");
    }
    assert [row][..0] == [];
  }

  /** A split row whose field is only whitespace vanishes from the output,
      even in `no` mode: `split()` yields no token. With an empty field
      delimiter every field counts as holding it. */
  lemma BlankFieldVanishes(row: Row, idx: nat, fieldDelimiter: string, keepUnsplit: bool)
    requires idx < |row| && Text.Contains(row[idx], fieldDelimiter)
    requires forall c | 0 <= c < |row[idx]| :: Text.IsSpace(row[idx][c])
    ensures var r := SplitRows([row], idx, fieldDelimiter, keepUnsplit);
      r.Ok? && r.value == Tally([], 1, 0)
  {
    Text.BlankHasNoWords(row[idx]);
    assert [row][..0] == [];
  }

  /** The empty field delimiter is in every field. */
  lemma EmptyDelimiterAlwaysSplits(s: string)
    ensures Text.Contains(s, "")
  {
    assert s[..0] == "";
  }

  // ---------------------------------------------------------------------
  // The whole file
  // ---------------------------------------------------------------------

  /** What `split` leaves behind: its one output file and the two counts it
      reports. */
  datatype Outcome = Outcome(file: OutputFile, split: nat, notSplit: nat)

  /** `split(filehandler, output_name_template, output_path, keep_headers,
      field_2_split, field_delimiter, split_field_only)`: format the template
      for piece 1, take the header when kept, then run the loop over the
      remaining records into that one file. */
  function Split(records: seq<Row>, directory: string, name: string, extension: string, keepHeaders: bool,
                 field: int, fieldDelimiter: string, keepUnsplit: bool): (r: Result<Outcome>)
    ensures !Paths.PlainTemplate(name, extension) ==> r == Err(TemplateBadPercent)
    ensures Paths.PlainTemplate(name, extension) && keepHeaders && records == [] ==> r == Err(EmptySource)
    ensures r.Ok? <==>
      Paths.PlainTemplate(name, extension) && (keepHeaders ==> records != []) && InRange(SplitData(records, keepHeaders), field)
    ensures r.Err? && Paths.PlainTemplate(name, extension) && (keepHeaders ==> records != []) ==>
      FirstOutOfRange(SplitData(records, keepHeaders), field, r.fault)
    ensures r.Ok? ==> r.value.file.directory == directory && r.value.file.name == Paths.OutputName(name, extension, 1)
    ensures r.Ok? && keepHeaders ==> |r.value.file.lines| > 0 && r.value.file.lines[0] == records[0]
    ensures r.Ok? ==> var data := SplitData(records, keepHeaders);
      && InRange(data, field)
      && (keepHeaders ==> records != [] && r.value.file.lines == [records[0]] + Expand(data, field, fieldDelimiter, keepUnsplit))
      && (!keepHeaders ==> r.value.file.lines == Expand(data, field, fieldDelimiter, keepUnsplit))
      && r.value.split == CountSplit(data, field, fieldDelimiter)
      && r.value.notSplit == (if keepUnsplit then |data| - CountSplit(data, field, fieldDelimiter) else 0)
  {
    if !Paths.PlainTemplate(name, extension) then Err(TemplateBadPercent)
    else if keepHeaders && |records| == 0 then Err(EmptySource)
    else
      var header := if keepHeaders then Some(records[0]) else None;
      var data := SplitData(records, keepHeaders);
      var t :- SplitRows(data, field, fieldDelimiter, keepUnsplit);
      SplitRowsWrites(data, field, fieldDelimiter, keepUnsplit);
      Ok(Outcome(OutputFile(directory, Paths.OutputName(name, extension, 1), HeaderLines(header) + t.rows),
                 t.split, t.notSplit))
  }

  // ---------------------------------------------------------------------
  // The script
  // ---------------------------------------------------------------------

  /** The command-line arguments of the script. */
  datatype FieldArgs = FieldArgs(
    file: Option<string>,
    delimiter: Option<string>,
    field2split: Option<string>,
    fieldDelimiter: Option<string>,
    encoding: Option<string>,
    splitFieldOnly: Option<string>)

  /** The settings the script derives before splitting. */
  datatype Config = Config(
    source: Paths.SourcePath,
    delimiter: string,
    encoding: string,
    field: int,
    fieldDelimiter: string,
    splitFieldOnly: string)

  const DefaultDelimiter: string := ","

  const DefaultEncoding: string := "UTF-8"

  /** The `splitfieldonly` setting: the lower-cased argument when it is `yes`
      or `no`, `yes` in every other case. */
  function NormalizeSplitFieldOnly(arg: Option<string>): (r: string)
    ensures r == "yes" || r == "no"
    ensures r == "no" <==> arg.Some? && Text.Lower(arg.value) == "no"
  {
    match arg
    case None => "yes"
    case Some(s) =>
      var l := Text.Lower(s);
      if l == "yes" || l == "no" then l else "yes"
  }

  /** Which arguments select `no` mode: exactly the two-letter spellings of
      `no` in any case. */
  lemma NoModeSpellings(s: string)
    ensures NormalizeSplitFieldOnly(Some(s)) == "no" <==>
      |s| == 2 && (s[0] == 'n' || s[0] == 'N') && (s[1] == 'o' || s[1] == 'O')
  {
    Text.LowerToWord(s, "no");
  }

  /** The settings part of the script: cut the path (an absent `-file`
      fails), default the delimiter and encoding when absent (an empty text
      is kept), insist on `-field2split` and `-fielddelimiter`, parse the
      field number, and normalise `splitfieldonly`. */
  function Configure(a: FieldArgs): (r: Result<Config>)
    ensures a.file.None? ==> r == Err(FileMissing)
    ensures a.file.Some? && (a.field2split.None? || a.fieldDelimiter.None?) ==> r == Err(SplitArgsMissing)
    ensures r.Ok? <==>
      a.file.Some? && a.field2split.Some? && a.fieldDelimiter.Some? && Integers.ParseInt(a.field2split.value).Some?
    ensures r.Err? && a.file.Some? && a.field2split.Some? && a.fieldDelimiter.Some? ==> r == Err(FieldIndexNotInt)
    ensures r.Ok? ==>
      && r.value.source == Paths.SplitSourcePath(a.file.value)
      && Some(r.value.field) == Integers.ParseInt(a.field2split.value)
      && r.value.fieldDelimiter == a.fieldDelimiter.value
      && r.value.delimiter == (if a.delimiter.None? then DefaultDelimiter else a.delimiter.value)
      && r.value.encoding == (if a.encoding.None? then DefaultEncoding else a.encoding.value)
      && (r.value.splitFieldOnly == "no" <==> a.splitFieldOnly.Some? && Text.Lower(a.splitFieldOnly.value) == "no")
  {
    match a.file
    case None => Err(FileMissing)
    case Some(path) =>
      var delimiter := if a.delimiter.None? then DefaultDelimiter else a.delimiter.value;
      var encoding := if a.encoding.None? then DefaultEncoding else a.encoding.value;
      if a.field2split.None? || a.fieldDelimiter.None? then Err(SplitArgsMissing)
      else
        match Integers.ParseInt(a.field2split.value)
        case None => Err(FieldIndexNotInt)
        case Some(field) =>
          Ok(Config(Paths.SplitSourcePath(path), delimiter, encoding, field,
                    a.fieldDelimiter.value, NormalizeSplitFieldOnly(a.splitFieldOnly)))
  }

  /** The script body: configure, count the lines (an empty file fails),
      then split with the header kept into `name(1).csv` in the source's
      directory. */
  function Run(a: FieldArgs, records: seq<Row>): (r: Result<Outcome>)
    ensures Configure(a).Err? ==> r == Err(Configure(a).fault)
    ensures Configure(a).Ok? && records == [] ==> r == Err(NothingToCount)
    ensures r.Ok? <==>
      && Configure(a).Ok? && records != []
      && Paths.PlainTemplate(Configure(a).value.source.name, Paths.TargetExtension)
      && InRange(records[1..], Configure(a).value.field)
    ensures r.Err? && Configure(a).Ok? && records != [] ==>
      var c := Configure(a).value;
      if Paths.PlainTemplate(c.source.name, Paths.TargetExtension) then FirstOutOfRange(records[1..], c.field, r.fault)
      else r.fault == TemplateBadPercent
    ensures r.Ok? ==> var name := Configure(a).value.source.name;
      && Paths.PlainTemplate(name, Paths.TargetExtension)
      && r.value.file.name == Paths.OutputName(name, Paths.TargetExtension, 1)
    ensures r.Ok? ==> |r.value.file.lines| > 0 && r.value.file.lines[0] == records[0]
    ensures r.Ok? ==> var c, data := Configure(a).value, records[1..];
      var n := CountSplit(data, c.field, c.fieldDelimiter);
      && InRange(data, c.field)
      && r.value.file.lines == [records[0]] + Expand(data, c.field, c.fieldDelimiter, c.splitFieldOnly == "no")
      && r.value.split == n
      && r.value.notSplit == (if c.splitFieldOnly == "no" then |data| - n else 0)
  {
    var c :- Configure(a);
    if |records| == 0 then Err(NothingToCount)
    else
      Split(records, c.source.directory, c.source.name, Paths.TargetExtension, true,
            c.field, c.fieldDelimiter, c.splitFieldOnly == "no")
  }
}

=== FILE: integers.dfy ===
/** Python's conversions between integers and decimal text: `str(n)` and
`int(s)` on a `str`.

`int(s)` accepts surrounding whitespace, one optional sign directly before
the digits, and ASCII digits in which single underscores may separate two
digits (`"1_000"`). Leading zeros are allowed. Since Python 3.11, `int()`
also refuses a text of more than 4300 digits (CPython's default for
`sys.set_int_max_str_digits`); leading zeros count, signs, underscores and
whitespace do not.
 */
module Integers {
  import opened Results
  import Text

  predicate IsDigit(c: char) {
    '0' <= c <= '9'
  }

  function DigitChar(d: nat): (c: char)
    requires d < 10
    ensures IsDigit(c)
  {
    ('0' as int + d) as char
  }

  function DigitValue(c: char): nat {
    if IsDigit(c) then c as int - '0' as int else 0
  }

  predicate AllDigits(s: string) {
    forall i | 0 <= i < |s| :: IsDigit(s[i])
  }

  /** `str(n)` for a natural number: its digits, most significant first,
      without leading zeros. */
  function NatDigits(n: nat): (r: string)
    ensures |r| >= 1 && AllDigits(r)
    ensures r[0] == '0' ==> n == 0
    decreases n
  {
    if n < 10 then [DigitChar(n)] else NatDigits(n / 10) + [DigitChar(n % 10)]
  }

  /** `str(n)`: the decimal text of an integer, with a leading `-` when it is
      negative. */
  function Decimal(n: int): string {
    if n < 0 then "-" + NatDigits(-n) else NatDigits(n)
  }

  /** Whitespace `int()` skips around the number: `str.isspace()` characters
      except the ASCII information separators U+001C..U+001F, which `int()`
      rejects. */
  predicate IsIntSpace(c: char) {
    Text.IsSpace(c) && !('\U{1C}' <= c <= '\U{1F}')
  }

  function TrimStart(s: string): string
    decreases |s|
  {
    if |s| > 0 && IsIntSpace(s[0]) then TrimStart(s[1..]) else s
  }

  function TrimEnd(s: string): string
    decreases |s|
  {
    if |s| > 0 && IsIntSpace(s[|s| - 1]) then TrimEnd(s[..|s| - 1]) else s
  }

  /** The digit part of an integer literal: digits, where an underscore may
      stand only between two digits. */
  predicate WellFormedDigits(d: string) {
    && |d| > 0
    && IsDigit(d[0])
    && IsDigit(d[|d| - 1])
    && (forall i | 0 <= i < |d| :: IsDigit(d[i]) || d[i] == '_')
    && (forall i | 0 <= i < |d| - 1 :: d[i] == '_' ==> d[i + 1] != '_')
  }

  /** The number the digits denote, underscores skipped. */
  function DigitsValue(d: string): nat
    decreases |d|
  {
    if |d| == 0 then 0
    else if d[|d| - 1] == '_' then DigitsValue(d[..|d| - 1])
    else 10 * DigitsValue(d[..|d| - 1]) + DigitValue(d[|d| - 1])
  }

  /** The most digits `int()` converts. */
  const MaxStrDigits: nat := 4300

  /** The number of ASCII digits in a text. */
  function CountDigits(s: string): nat
    decreases |s|
  {
    if |s| == 0 then 0 else CountDigits(s[..|s| - 1]) + (if IsDigit(s[|s| - 1]) then 1 else 0)
  }

  /** `str(n)` has no more digits than `int()` converts back. */
  predicate WithinDigitLimit(n: int) {
    |NatDigits(if n < 0 then -n else n)| <= MaxStrDigits
  }

  /** `int(s)` on a text: `None` where Python raises `ValueError`, either
      because the text is no integer literal or because it has too many
      digits. */
  function ParseInt(s: string): Option<int> {
    if CountDigits(s) > MaxStrDigits then None else ReadInt(s)
  }

  /** The literal grammar of `int(s)` alone, without the digit limit. */
  function ReadInt(s: string): Option<int> {
    var t := TrimEnd(TrimStart(s));
    if |t| > 0 && (t[0] == '+' || t[0] == '-') then
      if WellFormedDigits(t[1..]) then
        var v: int := DigitsValue(t[1..]);
        Some(if t[0] == '-' then -v else v)
      else None
    else if WellFormedDigits(t) then Some(DigitsValue(t))
    else None
  }

  lemma {:induction false} DigitsValueOfNatDigits(n: nat)
    ensures DigitsValue(NatDigits(n)) == n
    decreases n
  {
    if n >= 10 {
      var d := NatDigits(n);
      DigitsValueOfNatDigits(n / 10);
      assert d[..|d| - 1] == NatDigits(n / 10);
    }
  }

  lemma Untrimmed(t: string)
    requires |t| > 0 && !IsIntSpace(t[0]) && !IsIntSpace(t[|t| - 1])
    ensures TrimEnd(TrimStart(t)) == t
  {
  }

  lemma NatDigitsWellFormed(n: nat)
    ensures WellFormedDigits(NatDigits(n))
  {
  }

  /** The literal grammar reads every decimal text back to its integer. */
  lemma ReadDecimal(n: int)
    ensures ReadInt(Decimal(n)) == Some(n)
  {
    var t := Decimal(n);
    var m: nat := if n < 0 then -n else n;
    var d := NatDigits(m);
    DigitsValueOfNatDigits(m);
    NatDigitsWellFormed(m);
    assert IsDigit(d[|d| - 1]);
    if n < 0 {
      assert t == "-" + d && t[1..] == d && t[|t| - 1] == d[|d| - 1];
      Untrimmed(t);
    } else {
      assert t == d && IsDigit(t[0]);
      Untrimmed(t);
    }
  }

  lemma {:induction false} CountDigitsAppend(a: string, b: string)
    ensures CountDigits(a + b) == CountDigits(a) + CountDigits(b)
    decreases |b|
  {
    if |b| > 0 {
      var b' := b[..|b| - 1];
      CountDigitsAppend(a, b');
      assert (a + b)[..|a + b| - 1] == a + b';
    } else {
      assert a + b == a;
    }
  }

  lemma {:induction false} CountDigitsAtMost(s: string)
    ensures CountDigits(s) <= |s|
    decreases |s|
  {
    if |s| > 0 {
      CountDigitsAtMost(s[..|s| - 1]);
    }
  }

  /** A text no longer than the digit limit is only judged by the literal
      grammar. */
  lemma ShortText(s: string)
    requires |s| <= MaxStrDigits
    ensures ParseInt(s) == ReadInt(s)
  {
    CountDigitsAtMost(s);
  }

  lemma {:induction false} CountAllDigits(d: string)
    requires AllDigits(d)
    ensures CountDigits(d) == |d|
    decreases |d|
  {
    if |d| > 0 {
      CountAllDigits(d[..|d| - 1]);
    }
  }

  /** The digits `int()` counts in `str(n)` are those of `n`, the sign
      excluded. */
  lemma DecimalDigitCount(n: int)
    ensures CountDigits(Decimal(n)) == |NatDigits(if n < 0 then -n else n)|
  {
    var d := NatDigits(if n < 0 then -n else n);
    CountAllDigits(d);
    if n < 0 {
      CountDigitsAppend("-", d);
      assert CountDigits("-") == 0 by {
        assert "-"[..0] == "";
      }
    }
  }

  /** Round trip: `int(str(n)) == n` exactly when `str(n)` is within the
      digit limit; beyond it `int()` raises. */
  lemma ParseDecimal(n: int)
    ensures ParseInt(Decimal(n)) == if WithinDigitLimit(n) then Some(n) else None
  {
    ReadDecimal(n);
    DecimalDigitCount(n);
  }

  /** Any text equal to `str(n)` parses back to `n` within the digit limit,
      and is refused beyond it. */
  lemma ParseDecimalText(s: string, n: int)
    requires s == Decimal(n)
    ensures ParseInt(s) == if WithinDigitLimit(n) then Some(n) else None
  {
    ParseDecimal(n);
  }

  /** A run of more than 4300 digits is refused, whatever its value. */
  lemma LongDigitsRejected(d: string)
    requires AllDigits(d) && |d| > MaxStrDigits
    ensures ParseInt(d) == None
  {
    CountAllDigits(d);
  }

  /** Distinct integers have distinct decimal texts. */
  lemma DecimalInjective(m: int, n: int)
    requires m != n
    ensures Decimal(m) != Decimal(n)
  {
    ReadDecimal(m);
    ReadDecimal(n);
  }

  /** Texts `int()` refuses: the empty or blank text, a sign without digits,
      and a misplaced underscore. */
  lemma ParseIntRejects()
    ensures ParseInt("") == None
    ensures ParseInt("  ") == None
    ensures ParseInt("-") == None
    ensures ParseInt("abc") == None
    ensures ParseInt("1__0") == None
    ensures ParseInt("_1") == None
  {
    RejectBlank();
    RejectSignOnly();
    RejectLetters();
    RejectUnderscores();
  }

  lemma RejectBlank()
    ensures ParseInt("") == None && ParseInt("  ") == None
  {
    ShortText("  ");
    assert TrimStart("  ") == "";
  }

  lemma RejectSignOnly()
    ensures ParseInt("-") == None
  {
    ShortText("-");
    assert TrimStart("-") == "-" && TrimEnd("-") == "-";
  }

  lemma RejectLetters()
    ensures ParseInt("abc") == None
  {
    ShortText("abc");
    assert TrimStart("abc") == "abc" && TrimEnd("abc") == "abc";
  }

  lemma RejectUnderscores()
    ensures ParseInt("1__0") == None && ParseInt("_1") == None
  {
    ShortText("1__0");
    ShortText("_1");
    assert TrimStart("1__0") == "1__0" && TrimEnd("1__0") == "1__0";
    assert "1__0"[1] == '_';
    assert TrimStart("_1") == "_1" && TrimEnd("_1") == "_1";
  }

  /** Texts `int()` accepts beyond plain `str(n)`: surrounding whitespace,
      an explicit plus sign, leading zeros and digit-group underscores. */
  lemma ParseIntAccepts()
    ensures ParseInt(" 7 ") == Some(7)
    ensures ParseInt("+5") == Some(5)
    ensures ParseInt("007") == Some(7)
    ensures ParseInt("1_000") == Some(1000)
  {
    ParseSpaced();
    ParseSigned();
    ParseZeros();
    ParseGrouped();
  }

  lemma ParseSpaced()
    ensures ParseInt(" 7 ") == Some(7)
  {
    ShortText(" 7 ");
    assert TrimStart(" 7 ") == "7 " && TrimEnd("7 ") == "7";
    assert DigitsValue("7") == 7;
  }

  lemma ParseSigned()
    ensures ParseInt("+5") == Some(5)
  {
    ShortText("+5");
    assert TrimStart("+5") == "+5" && TrimEnd("+5") == "+5";
    assert "+5"[1..] == "5" && DigitsValue("5") == 5;
  }

  lemma ParseZeros()
    ensures ParseInt("007") == Some(7)
  {
    ShortText("007");
    assert TrimStart("007") == "007" && TrimEnd("007") == "007";
    assert "007"[..2] == "00" && "00"[..1] == "0";
    assert DigitsValue("007") == 7;
  }

  lemma ParseGrouped()
    ensures ParseInt("1_000") == Some(1000)
  {
    ShortText("1_000");
    assert TrimStart("1_000") == "1_000" && TrimEnd("1_000") == "1_000";
    assert "1_000"[..4] == "1_00" && "1_00"[..3] == "1_0" && "1_0"[..2] == "1_" && "1_"[..1] == "1";
    assert DigitsValue("1_000") == 1000;
  }
}

=== FILE: paths.dfy ===
/** Source-path slicing and output-file naming.

Every script cuts the source path at its last backslash (the working
directory, kept with its trailing backslash), takes the text up to the final
four characters as the file name, and names piece `k` by formatting the
template `name + "(%s)" + extension` with `k`.
 */
module Paths {
  import opened Results
  import Integers

  /** Python's `s.rfind(c)`: the last index of `c` in `s`, or -1. */
  function LastIndexOf(s: string, c: char): (r: int)
    ensures -1 <= r < |s|
    ensures r >= 0 ==> s[r] == c
    ensures forall k | r < k < |s| :: s[k] != c
    decreases |s|
  {
    if |s| == 0 then -1
    else if s[|s| - 1] == c then |s| - 1
    else LastIndexOf(s[..|s| - 1], c)
  }

  /** Where a Python slice bound lands in a sequence of length `n`: a
      negative bound counts from the end, and the result is clamped. */
  function SliceBound(i: int, n: nat): nat {
    if i < 0 then (if i + n < 0 then 0 else i + n)
    else if i > n then n
    else i
  }

  /** Python's `s[i:j]`. */
  function Slice(s: string, i: int, j: int): string {
    var a, b := SliceBound(i, |s|), SliceBound(j, |s|);
    if a < b then s[a..b] else ""
  }

  datatype SourcePath = SourcePath(directory: string, name: string, extension: string)

  const Backslash: char := '\\'

  /** The extension the prototype scripts give every output file, whatever
      the source's own extension. */
  const TargetExtension: string := ".csv"

  /** The cut of `readFile` (and of each prototype script): the directory is
      everything up to and including the last backslash, the name runs from
      there to four characters before the end, and the extension is the
      final four characters. */
  function SplitSourcePath(p: string): SourcePath {
    var cut := LastIndexOf(p, Backslash) + 1;
    SourcePath(Slice(p, 0, cut), Slice(p, cut, |p| - 4), Slice(p, |p| - 4, |p|))
  }

  /** A slice from the start up to an in-range bound is the prefix. */
  lemma SlicePrefix(s: string, j: int)
    requires 0 <= j <= |s|
    ensures Slice(s, 0, j) == s[..j]
  {
  }

  /** A slice up to the end is the suffix from where the start lands. */
  lemma SliceSuffix(s: string, i: int)
    ensures Slice(s, i, |s|) == s[SliceBound(i, |s|)..]
  {
  }

  /** A slice from an in-range start is empty or the plain subsequence. */
  lemma SliceFrom(s: string, i: int, j: int)
    requires 0 <= i <= |s|
    ensures var b := SliceBound(j, |s|); Slice(s, i, j) == (if i < b then s[i..b] else "")
  {
  }

  /** The three cuts as plain subsequences. */
  lemma SplitSourcePathCuts(p: string)
    ensures var r := SplitSourcePath(p);
      var a, b := LastIndexOf(p, Backslash) + 1, SliceBound(|p| - 4, |p|);
      && r.directory == p[..a]
      && r.name == (if a < b then p[a..b] else "")
      && r.extension == p[b..]
  {
    var a := LastIndexOf(p, Backslash) + 1;
    SlicePrefix(p, a);
    SliceSuffix(p, |p| - 4);
    SliceFrom(p, a, |p| - 4);
  }

  /** The directory ends at the last backslash, the name holds no
      backslash, and the extension is the last four characters. */
  lemma SplitSourcePathParts(p: string)
    ensures var r := SplitSourcePath(p);
      && r.directory == p[..LastIndexOf(p, Backslash) + 1]
      && (forall i | 0 <= i < |r.name| :: r.name[i] != Backslash)
      && (|p| >= 4 ==> r.extension == p[|p| - 4..])
  {
    SplitSourcePathCuts(p);
    var a, b := LastIndexOf(p, Backslash) + 1, SliceBound(|p| - 4, |p|);
    if a < b {
      NoBackslashAfterLast(p, a, b);
    }
  }

  /** Past the last backslash there is none. */
  lemma NoBackslashAfterLast(p: string, a: int, b: int)
    requires a == LastIndexOf(p, Backslash) + 1 && a <= b <= |p|
    ensures forall i | 0 <= i < |p[a..b]| :: p[a..b][i] != Backslash
  {
    forall i | 0 <= i < |p[a..b]|
      ensures p[a..b][i] != Backslash
    {
      assert p[a..b][i] == p[a + i];
    }
  }

  /** Cutting a sequence at `a` and `b` and gluing the parts back gives it
      back exactly when the cuts are in order. */
  lemma RejoinCuts(p: string, a: nat, b: nat)
    requires a <= |p| && b <= |p|
    ensures p[..a] + (if a < b then p[a..b] else "") + p[b..] == p <==> a <= b
  {
    if a <= b {
      assert p[..a] + (if a < b then p[a..b] else "") + p[b..] == p;
    } else {
      assert |p[..a] + "" + p[b..]| == a + (|p| - b);
    }
  }

  /** The three parts put back together give the path exactly when the
      name does not start after the extension begins; otherwise the
      characters between the two cuts appear twice. */
  lemma SplitSourcePathJoins(p: string)
    ensures var r := SplitSourcePath(p);
      r.directory + r.name + r.extension == p
      <==> LastIndexOf(p, Backslash) + 1 <= SliceBound(|p| - 4, |p|)
  {
    SplitSourcePathCuts(p);
    RejoinCuts(p, LastIndexOf(p, Backslash) + 1, SliceBound(|p| - 4, |p|));
  }

  /** The usual case: a path whose last backslash lies before its final
      four characters is the concatenation of its three parts. */
  lemma SplitSourcePathRejoins(p: string)
    requires |p| >= 4 && LastIndexOf(p, Backslash) + 1 <= |p| - 4
    ensures var r := SplitSourcePath(p); r.directory + r.name + r.extension == p
  {
    SplitSourcePathJoins(p);
  }

  /** A file name shorter than four characters breaks the cut: `ab\cd`
      yields the directory `ab\`, an empty name and the "extension"
      `b\cd`. */
  lemma ShortFileNameOverlaps()
    ensures SplitSourcePath("ab\\cd") == SourcePath("ab\\", "", "b\\cd")
  {
    assert LastIndexOf("ab\\cd", Backslash) == 2;
  }

  /** How `%`-formatting reads the literal text of a template: `%%` stands
      for one `%`, and any other `%` starts a conversion. `None` when the
      text holds such a `%`. */
  function Unescape(s: string): (r: Option<string>)
    ensures r.Some? ==> |r.value| <= |s|
    decreases |s|
  {
    if |s| == 0 then Some("")
    else if s[0] != '%' then
      match Unescape(s[1..])
      case Some(t) => Some([s[0]] + t)
      case None => None
    else if |s| >= 2 && s[1] == '%' then
      match Unescape(s[2..])
      case Some(t) => Some("%" + t)
      case None => None
    else None
  }

  /** `(name + '(%s)' + extension) % piece` succeeds exactly when the only
      conversion in the template is the `%s` placeholder: a further
      conversion finds no argument left, a `%` just before `(` asks for a
      mapping, and a `%` at the very end is an incomplete format. */
  predicate PlainTemplate(name: string, extension: string) {
    Unescape(name).Some? && Unescape(extension).Some?
  }

  /** Text without `%` is read literally. */
  lemma {:induction false} UnescapeLiteral(s: string)
    requires '%' !in s
    ensures Unescape(s) == Some(s)
    decreases |s|
  {
    if |s| > 0 {
      assert '%' !in s[1..];
      UnescapeLiteral(s[1..]);
      assert [s[0]] + s[1..] == s;
    }
  }

  /** Reading the literal text back leaves no `%` unpaired: formatting is
      undone by doubling every `%`. */
  function Escape(s: string): (r: string)
    ensures Unescape(r) == Some(s)
    decreases |s|
  {
    if |s| == 0 then ""
    else if s[0] == '%' then
      var r := "%%" + Escape(s[1..]);
      assert r[2..] == Escape(s[1..]);
      assert "%" + s[1..] == s;
      r
    else
      var r := [s[0]] + Escape(s[1..]);
      assert r[1..] == Escape(s[1..]);
      assert [s[0]] + s[1..] == s;
      r
  }

  /** The other direction of the round trip: a template text that formats
      is the escaped form of what it formats to, so the usable template
      texts are exactly the escaped texts. */
  lemma {:induction false} UnescapeEscape(s: string)
    requires Unescape(s).Some?
    ensures Escape(Unescape(s).value) == s
    decreases |s|
  {
    if |s| > 0 {
      var t := Unescape(s).value;
      if s[0] != '%' {
        UnescapeEscape(s[1..]);
        assert t == [s[0]] + Unescape(s[1..]).value;
        assert t[1..] == Unescape(s[1..]).value;
        assert [s[0]] + s[1..] == s;
      } else {
        UnescapeEscape(s[2..]);
        assert t == "%" + Unescape(s[2..]).value;
        assert t[1..] == Unescape(s[2..]).value;
        assert "%%" + s[2..] == s;
      }
    }
  }

  /** Templates Python refuses and one it accepts. */
  lemma UnescapeExamples()
    ensures !PlainTemplate("50%", ".csv") && !PlainTemplate("a%d", ".csv")
    ensures !PlainTemplate("x", ".cs%")
    ensures Unescape("a%%b") == Some("a%b")
  {
    assert Unescape("%") == None;
    assert Unescape("0%") == None;
    assert Unescape("%d") == None;
    assert "%d"[1] == 'd';
    assert Unescape("s%") == None;
    assert Unescape("cs%") == None;
    UnescapeLiteral("b");
    assert "%%b"[2..] == "b" && "%" + "b" == "%b";
    assert "a%%b"[1..] == "%%b" && ['a'] + "%b" == "a%b";
  }

  /** `(name + '(%s)' + extension) % piece`: the literal text of the name,
      the decimal piece number in parentheses, then the literal text of the
      extension. */
  function OutputName(name: string, extension: string, piece: int): (r: string)
    requires PlainTemplate(name, extension)
    ensures var n, x := Unescape(name).value, Unescape(extension).value;
      && |r| > |n| + |x| + 2
      && r[..|n|] == n && r[|r| - |x|..] == x
      && r[|n|] == '(' && r[|r| - |x| - 1] == ')'
      && r[|n| + 1..|r| - |x| - 1] == Integers.Decimal(piece)
  {
    var n, d, x := Unescape(name).value, Integers.Decimal(piece), Unescape(extension).value;
    var r := n + "(" + d + ")" + x;
    assert r[..|n|] == n;
    assert r[|r| - |x|..] == x;
    assert r[|n| + 1..|r| - |x| - 1] == d;
    r
  }

  /** A name and extension without `%` appear in the output name as they
      are. */
  lemma OutputNameLiteral(name: string, extension: string, piece: int)
    requires '%' !in name && '%' !in extension
    ensures PlainTemplate(name, extension)
    ensures OutputName(name, extension, piece) == name + "(" + Integers.Decimal(piece) + ")" + extension
  {
    UnescapeLiteral(name);
    UnescapeLiteral(extension);
  }

  /** The piece number can be read back from the name: the text between
      the parentheses parses to it, up to the digit limit of `int()`. */
  lemma OutputNameReadBack(name: string, extension: string, piece: int)
    requires PlainTemplate(name, extension)
    ensures Integers.ParseInt(PieceText(name, extension, piece))
            == if Integers.WithinDigitLimit(piece) then Some(piece) else None
  {
    Integers.ParseDecimalText(PieceText(name, extension, piece), piece);
  }

  /** The text between the parentheses of the name of a piece. */
  function PieceText(name: string, extension: string, piece: int): (t: string)
    requires PlainTemplate(name, extension)
    ensures t == Integers.Decimal(piece)
  {
    var r, n, x := OutputName(name, extension, piece), Unescape(name).value, Unescape(extension).value;
    r[|n| + 1..|r| - |x| - 1]
  }

  /** Distinct pieces get distinct file names. */
  lemma OutputNamesDistinct(name: string, extension: string, j: int, k: int)
    requires PlainTemplate(name, extension)
    requires j != k
    ensures OutputName(name, extension, j) != OutputName(name, extension, k)
  {
    Integers.DecimalInjective(j, k);
  }
}

=== FILE: records.dfy ===
/** The record store: the parsed rows of a source file, held in memory.

A record is a row of text fields as the CSV reader yields it; the reader
itself (quoting, escaping, newlines, encodings) is not part of this model.
 */
module Records {
  import opened Results

  type Row = seq<string>

  /** A `CSVData` object: the header, the data rows in read order, and
      whether any data row was read. */
  datatype CsvData = CsvData(header: Row, data: seq<Row>, hasData: bool)

  /** The reading part of `CSVOps.readFile`: the first record becomes the
      header (`next(reader)`, which raises `StopIteration` on a source
      without records) and every later record is appended to the data. */
  function Load(records: seq<Row>): (r: Result<CsvData>)
    ensures r.Ok? <==> |records| > 0
    ensures r.Err? ==> r.fault == EmptySource
    ensures r.Ok? ==> [r.value.header] + r.value.data == records
    ensures r.Ok? ==> (r.value.hasData <==> |r.value.data| > 0)
  {
    if |records| == 0 then Err(EmptySource)
    else
      var data := records[1..];
      Ok(CsvData(records[0], data, |data| != 0))
  }

  /** The data a splitter writes: every record after the header when
      headers are kept, every record otherwise. */
  function SplitData(records: seq<Row>, keepHeaders: bool): seq<Row> {
    if keepHeaders && |records| > 0 then records[1..] else records
  }

  /** `CSVOps.getCSVLength`: the number of data rows. */
  function Length(d: CsvData): nat {
    |d.data|
  }

  /** The length excludes the header, and `hasData` is set exactly when the
      length is positive. */
  lemma LengthExcludesHeader(records: seq<Row>)
    requires |records| > 0
    ensures Load(records).Ok?
    ensures Length(Load(records).value) == |records| - 1
    ensures Load(records).value.hasData <==> Length(Load(records).value) > 0
  {
    var d := Load(records).value;
    assert |[d.header] + d.data| == 1 + |d.data|;
  }
}

=== FILE: results.dfy ===
/** Failure-compatible outcomes shared by every script of the utility.

Python signals failure in these scripts in two ways: `quit()` after an
error message, and an uncaught exception (`StopIteration`, `IndexError`,
`ValueError`, `TypeError`, `NameError`, or `AttributeError` from slicing an
absent path). The model turns each into an `Err` carrying the fault that
caused it. The `sys.exit` on a CSV reader error is not modelled, since the
reader itself is not.
 */
module Results {

  /** Python's `None` or a value. */
  datatype Option<+T> = None | Some(value: T)

  /** Why a run stopped. */
  datatype Fault =
    | OperationBlank                 // -operation missing or blank
    | OperationUnknown               // lower-cased -operation not a known operation
    | FileBlank                      // -file missing or blank
    | FileMissing                    // -file absent where the path is cut without a check
    | ChunkSizeNotInt                // -chunksize does not parse as an integer
    | EmptySource                    // `next(reader)` on a source without records
    | NothingToCount                 // the line-count pass read no line, leaving `count` unbound
    | SplitArgsMissing               // -field2split or -fielddelimiter absent
    | FieldIndexNotInt               // -field2split does not parse as an integer
    | FieldIndexOutOfRange(row: nat) // `input_row[field_2_split]` raised IndexError on this data row
    | RecordTooShort(row: nat)       // `input[15]` raised IndexError on this data row
    | TemplateBadPercent             // the output-name template holds a '%' outside a '%%' pair

  datatype Result<+T> = Ok(value: T) | Err(fault: Fault) {

    predicate IsFailure() {
      Err?
    }

    function PropagateFailure<U>(): Result<U>
      requires Err?
    {
      Err(fault)
    }

    function Extract(): T
      requires Ok?
    {
      value
    }
  }
}

=== FILE: text.dfy ===
/** The pieces of Python's `str` behaviour the scripts rely on: whitespace,
lower-casing, substring containment (`sub in s`) and whitespace
tokenising (`s.split()` with no separator).
 */
module Text {

  /** Python's `str.isspace()` for one character: the separators `split()`
      breaks on. */
  predicate IsSpace(c: char) {
    || ('\t' <= c <= '\r')               // \t \n \v \f \r
    || ('\U{1C}' <= c <= '\U{1F}')       // the ASCII information separators
    || c == ' ' || c == '\U{85}' || c == '\U{A0}' || c == '\U{1680}'
    || ('\U{2000}' <= c <= '\U{200A}')
    || c == '\U{2028}' || c == '\U{2029}' || c == '\U{202F}' || c == '\U{205F}' || c == '\U{3000}'
  }

  /** A non-empty text without whitespace: what `split()` can return. */
  predicate IsWord(w: string) {
    |w| > 0 && forall i | 0 <= i < |w| :: !IsSpace(w[i])
  }

  /** `str.lower()` on one character, for the characters whose lower case is
      an ASCII letter: `A`-`Z` and the Kelvin sign, which lowers to `k`. */
  function LowerChar(c: char): char {
    if 'A' <= c <= 'Z' then (c as int + 32) as char
    else if c == '\U{212A}' then 'k'
    else c
  }

  /** `str.lower()`: every character lowered in place; a character that is
      neither `A`-`Z` nor the Kelvin sign is kept as it is. */
  function Lower(s: string): (r: string)
    ensures |r| == |s|
    ensures forall i | 0 <= i < |s| :: 'A' <= s[i] <= 'Z' ==> r[i] as int == s[i] as int + 32
    ensures forall i | 0 <= i < |s| :: !('A' <= s[i] <= 'Z') && s[i] != '\U{212A}' ==> r[i] == s[i]
  {
    seq(|s|, i requires 0 <= i < |s| => LowerChar(s[i]))
  }

  /** A lower-case ASCII word: what a text is compared against after
      `lower()`. */
  predicate IsLowerAscii(w: string) {
    forall i | 0 <= i < |w| :: 'a' <= w[i] <= 'z'
  }

  /** Character `c` lowers to the lower-case ASCII letter `l`: it is `l`
      itself, its upper case, or (for `k`) the Kelvin sign. */
  predicate SpellsLetter(c: char, l: char) {
    c == l || c as int == l as int - 32 || (l == 'k' && c == '\U{212A}')
  }

  /** The texts that lower to a given lower-case ASCII word are exactly
      those that spell it letter by letter in any mix of cases. */
  lemma LowerToWord(s: string, w: string)
    requires IsLowerAscii(w)
    ensures Lower(s) == w <==> |s| == |w| && forall i | 0 <= i < |s| :: SpellsLetter(s[i], w[i])
  {
    if |s| == |w| && forall i | 0 <= i < |s| :: SpellsLetter(s[i], w[i]) {
      assert forall i | 0 <= i < |s| :: Lower(s)[i] == w[i];
    }
    if Lower(s) == w {
      forall i | 0 <= i < |s|
        ensures SpellsLetter(s[i], w[i])
      {
        assert LowerChar(s[i]) == w[i];
      }
    }
  }

  // ---------------------------------------------------------------------
  // Substring containment
  // ---------------------------------------------------------------------

  /** `sub` occurs in `s` starting at index `i`. */
  ghost predicate OccursAt(s: string, sub: string, i: int) {
    0 <= i && i + |sub| <= |s| && s[i..i + |sub|] == sub
  }

  /** Python's `sub in s`; the empty text is in every text. */
  function Contains(s: string, sub: string): (b: bool)
    ensures |sub| == 0 ==> b
    ensures |sub| > |s| ==> !b
    decreases |s|
  {
    if |sub| <= |s| && s[..|sub|] == sub then true
    else if |s| == 0 then false
    else Contains(s[1..], sub)
  }

  /** Occurrences in the tail of `s` are the occurrences in `s` one place
      later. */
  lemma OccursInTail(s: string, sub: string, j: int)
    requires |s| > 0 && j >= 0
    ensures OccursAt(s[1..], sub, j) <==> OccursAt(s, sub, j + 1)
  {
    if j + |sub| <= |s| - 1 {
      assert s[1..][j..j + |sub|] == s[j + 1..j + 1 + |sub|];
    }
  }

  lemma {:induction false} ContainsIffOccurs(s: string, sub: string)
    ensures Contains(s, sub) <==> exists i :: OccursAt(s, sub, i)
    decreases |s|
  {
    if |sub| <= |s| && s[..|sub|] == sub {
      assert OccursAt(s, sub, 0);
    } else if |s| == 0 {
      assert forall i :: !OccursAt(s, sub, i);
    } else {
      ContainsIffOccurs(s[1..], sub);
      if i :| OccursAt(s, sub, i) {
        assert i != 0;
        OccursInTail(s, sub, i - 1);
      }
      if j :| OccursAt(s[1..], sub, j) {
        OccursInTail(s, sub, j);
      }
    }
  }

  // ---------------------------------------------------------------------
  // Whitespace tokenising
  // ---------------------------------------------------------------------

  /** Length of the run of non-whitespace characters that starts `s`. */
  function WordLen(s: string): (n: nat)
    ensures n <= |s|
    ensures forall i | 0 <= i < n :: !IsSpace(s[i])
    ensures n == |s| || IsSpace(s[n])
  {
    if |s| == 0 || IsSpace(s[0]) then 0 else 1 + WordLen(s[1..])
  }

  /** Python's `s.split()`: the maximal runs of non-whitespace characters,
      in order; leading, trailing and repeated whitespace give no token. */
  function Words(s: string): (ws: seq<string>)
    ensures forall j | 0 <= j < |ws| :: IsWord(ws[j])
    decreases |s|
  {
    if |s| == 0 then []
    else if IsSpace(s[0]) then Words(s[1..])
    else
      var n := WordLen(s);
      [s[..n]] + Words(s[n..])
  }

  /** The tokens separated by single spaces. */
  function JoinWords(ws: seq<string>): string {
    if |ws| == 0 then ""
    else if |ws| == 1 then ws[0]
    else ws[0] + " " + JoinWords(ws[1..])
  }

  /** Concatenation of texts, with nothing between them. */
  function Concat(ws: seq<string>): string {
    if |ws| == 0 then "" else ws[0] + Concat(ws[1..])
  }

  /** The characters of `s` that are not whitespace, in order. */
  function NonSpace(s: string): string
    decreases |s|
  {
    if |s| == 0 then "" else (if IsSpace(s[0]) then "" else [s[0]]) + NonSpace(s[1..])
  }

  lemma {:induction false} WordLenOfWord(w: string, rest: string)
    requires IsWord(w)
    requires |rest| == 0 || IsSpace(rest[0])
    ensures WordLen(w + rest) == |w|
  {
    var s := w + rest;
    assert |w| < |s| ==> IsSpace(s[|w|]);
  }

  /** A single word splits into itself. */
  lemma SingleWord(w: string)
    requires IsWord(w)
    ensures Words(w) == [w]
  {
    WordLenOfWord(w, "");
    assert w + "" == w;
    assert w[..|w|] == w;
  }

  /** A text made of whitespace only splits into no token at all. */
  lemma {:induction false} BlankHasNoWords(s: string)
    requires forall i | 0 <= i < |s| :: IsSpace(s[i])
    ensures Words(s) == []
    decreases |s|
  {
    if |s| > 0 {
      BlankHasNoWords(s[1..]);
    }
  }

  /** Round trip: splitting words joined by single spaces gives them back. */
  lemma {:induction false} WordsOfJoin(ws: seq<string>)
    requires forall j | 0 <= j < |ws| :: IsWord(ws[j])
    ensures Words(JoinWords(ws)) == ws
  {
    if |ws| == 1 {
      SingleWord(ws[0]);
    } else if |ws| > 1 {
      var w, rest := ws[0], JoinWords(ws[1..]);
      var s := w + (" " + rest);
      assert JoinWords(ws) == s;
      WordLenOfWord(w, " " + rest);
      assert s[..|w|] == w;
      assert s[|w|..] == " " + rest;
      assert (" " + rest)[1..] == rest;
      WordsOfJoin(ws[1..]);
      assert Words(s) == [w] + Words(" " + rest);
    }
  }

  lemma {:induction false} NonSpaceOfWordPrefix(s: string, n: nat)
    requires n <= |s|
    requires forall i | 0 <= i < n :: !IsSpace(s[i])
    ensures NonSpace(s) == s[..n] + NonSpace(s[n..])
  {
    if n > 0 {
      NonSpaceOfWordPrefix(s[1..], n - 1);
      assert s[1..][n - 1..] == s[n..];
      assert s[..n] == [s[0]] + s[1..][..n - 1];
    }
  }

  /** Splitting loses and reorders no character: the tokens, concatenated,
      are exactly the non-whitespace characters of the text. */
  lemma {:induction false} WordsKeepText(s: string)
    ensures Concat(Words(s)) == NonSpace(s)
    decreases |s|
  {
    if |s| > 0 {
      if IsSpace(s[0]) {
        WordsKeepText(s[1..]);
      } else {
        var n := WordLen(s);
        WordsKeepText(s[n..]);
        NonSpaceOfWordPrefix(s, n);
        var ws := [s[..n]] + Words(s[n..]);
        assert ws[0] == s[..n] && ws[1..] == Words(s[n..]);
      }
    }
  }
}

=== FILE: validator.dfy ===
/** COTI/Validator.py: the two argument checks the command line relies on.
Arguments arrive from the argument parser as a text or as `None`.
 */
module Validator {
  import opened Results
  import Integers

  /** Python's `str(input)` for a command-line value. */
  function Str(input: Option<string>): string {
    match input
    case None => "None"
    case Some(s) => s
  }

  /** `stringBlankOrNone`: `str(input)` is empty or is the text `None`.
      An absent argument counts as blank only because `str(None)` is
      `'None'`; the same holds for the literal argument `None`. */
  function BlankOrNone(input: Option<string>): (b: bool)
    ensures b <==> input == None || input == Some("") || input == Some("None")
  {
    var i := Str(input);
    i == "" || i == "None"
  }

  /** `isInt`: `int(input)` does not raise. `int(None)` raises `TypeError`. */
  function IsInt(input: Option<string>): (b: bool)
    ensures b ==> input.Some? && |input.value| > 0
  {
    match input
    case None => false
    case Some(s) =>
      Integers.ParseIntRejects();
      Integers.ParseInt(s).Some?
  }

  /** A decimal integer text passes `isInt` exactly when it is within the
      digit limit of `int()`, zero and negatives included. */
  lemma IsIntOfDecimal(n: int)
    ensures IsInt(Some(Integers.Decimal(n))) <==> Integers.WithinDigitLimit(n)
  {
    Integers.ParseDecimal(n);
  }

  /** The examples the validator is used on. */
  lemma IsIntExamples()
    ensures IsInt(Some("5000")) && IsInt(Some("-3")) && IsInt(Some("0"))
    ensures !IsInt(Some("")) && !IsInt(None) && !IsInt(Some("abc"))
  {
    assert Integers.Decimal(5000) == "5000" by {
      assert Integers.NatDigits(5) == "5";
      assert Integers.NatDigits(50) == "50";
      assert Integers.NatDigits(500) == "500";
    }
    assert Integers.Decimal(-3) == "-3" by {
      assert Integers.NatDigits(3) == "3";
    }
    assert Integers.Decimal(0) == "0";
    IsIntOfDecimal(5000);
    IsIntOfDecimal(-3);
    IsIntOfDecimal(0);
    Integers.ParseIntRejects();
  }
}

=== FILE: writing.dfy ===
/** The files a chunking run writes.

Each piece becomes one file in the source's working directory, named by
formatting the template with the piece number; its lines are the header
(when kept) followed by the piece's data rows. The template is formatted
for piece 1 before any row is looked at, so a malformed template stops the
run before anything is written.
 */
module Writing {
  import opened Results
  import opened Records
  import opened Chunking
  import Paths

  /** One written file: the directory it is joined to, its name there, and
      its lines in order. */
  datatype OutputFile = OutputFile(directory: string, name: string, lines: seq<Row>)

  /** The header line a piece starts with: one line when the header is
      kept, none otherwise. */
  function HeaderLines(header: Option<Row>): seq<Row> {
    match header
    case Some(h) => [h]
    case None => []
  }

  /** A piece's lines are its header lines and then its data rows. */
  lemma PieceLines(p: Piece)
    ensures p.Lines() == HeaderLines(p.header) + p.rows
  {
  }

  /** Piece `k` written to the file the template names for `k`. */
  function NameFiles(directory: string, name: string, extension: string, ps: seq<Piece>): seq<OutputFile>
    requires Paths.PlainTemplate(name, extension)
  {
    seq(|ps|, j requires 0 <= j < |ps| =>
      OutputFile(directory, Paths.OutputName(name, extension, ps[j].number), ps[j].Lines()))
  }

  /** The writing loop: `Err` when the template cannot be formatted, else
      one file per piece of `Chunk(data, chunkSize, header)`. The first file
      is written even when there is no data. */
  function WriteChunks(directory: string, name: string, extension: string,
                       header: Option<Row>, data: seq<Row>, chunkSize: int): (r: Result<seq<OutputFile>>)
    ensures r.Ok? <==> Paths.PlainTemplate(name, extension)
    ensures r.Err? ==> r.fault == TemplateBadPercent
    ensures r.Ok? ==> |r.value| >= 1
  {
    if !Paths.PlainTemplate(name, extension) then Err(TemplateBadPercent)
    else
      ChunkConserves(data, chunkSize, header);
      Ok(NameFiles(directory, name, extension, Chunk(data, chunkSize, header)))
  }

  // ---------------------------------------------------------------------
  // Reading the written files back
  // ---------------------------------------------------------------------

  /** The data lines of one file: its lines after the header line when the
      header was kept. */
  function Body(f: OutputFile, headed: bool): seq<Row> {
    if headed && |f.lines| > 0 then f.lines[1..] else f.lines
  }

  /** The data lines of the files, concatenated in file order: what a
      reader who strips the repeated header gets back. */
  function Rejoin(fs: seq<OutputFile>, headed: bool): seq<Row> {
    if |fs| == 0 then [] else Rejoin(fs[..|fs| - 1], headed) + Body(fs[|fs| - 1], headed)
  }

  lemma {:induction false} RejoinNamed(directory: string, name: string, extension: string,
                                       header: Option<Row>, ps: seq<Piece>)
    requires Paths.PlainTemplate(name, extension)
    requires forall j | 0 <= j < |ps| :: ps[j].header == header
    ensures Rejoin(NameFiles(directory, name, extension, ps), header.Some?) == DataRows(ps)
    decreases |ps|
  {
    if |ps| > 0 {
      var fs := NameFiles(directory, name, extension, ps);
      var k := |ps|;
      assert fs[..k - 1] == NameFiles(directory, name, extension, ps[..k - 1]);
      RejoinNamed(directory, name, extension, header, ps[..k - 1]);
      assert Body(fs[k - 1], header.Some?) == ps[k - 1].rows;
    }
  }

  /** Round trip: stripping the header from every written file and
      concatenating what is left gives back the data rows, in order, for
      every chunk size. */
  lemma WriteChunksRejoin(directory: string, name: string, extension: string,
                          header: Option<Row>, data: seq<Row>, chunkSize: int)
    requires Paths.PlainTemplate(name, extension)
    ensures var r := WriteChunks(directory, name, extension, header, data, chunkSize);
      r.Ok? && Rejoin(r.value, header.Some?) == data
  {
    ChunkConserves(data, chunkSize, header);
    RejoinNamed(directory, name, extension, header, Chunk(data, chunkSize, header));
  }

  /** Every file lands in the working directory under the name the template
      gives its 1-based position, every file starts with the header when it
      is kept, and no two files share a name. */
  lemma WriteChunksNames(directory: string, name: string, extension: string,
                         header: Option<Row>, data: seq<Row>, chunkSize: int)
    requires Paths.PlainTemplate(name, extension)
    ensures var r := WriteChunks(directory, name, extension, header, data, chunkSize);
      && r.Ok? && |r.value| >= 1
      && (forall j | 0 <= j < |r.value| ::
            && r.value[j].directory == directory
            && r.value[j].name == Paths.OutputName(name, extension, j + 1)
            && HeaderLines(header) <= r.value[j].lines)
      && (forall j, k | 0 <= j < k < |r.value| :: r.value[j].name != r.value[k].name)
  {
    var ps := Chunk(data, chunkSize, header);
    ChunkConserves(data, chunkSize, header);
    assert WriteChunks(directory, name, extension, header, data, chunkSize)
      == Ok(NameFiles(directory, name, extension, ps));
    NamedInOrder(directory, name, extension, header, ps);
    NamedApart(name, extension, NameFiles(directory, name, extension, ps));
  }

  /** Pieces numbered 1, 2, ... with a common header become files named by
      their position, each starting with that header. */
  lemma NamedInOrder(directory: string, name: string, extension: string, header: Option<Row>, ps: seq<Piece>)
    requires Paths.PlainTemplate(name, extension)
    requires forall j | 0 <= j < |ps| :: ps[j].number == j + 1 && ps[j].header == header
    ensures var fs := NameFiles(directory, name, extension, ps);
      && |fs| == |ps|
      && forall j | 0 <= j < |fs| ::
           && fs[j].directory == directory
           && fs[j].name == Paths.OutputName(name, extension, j + 1)
           && HeaderLines(header) <= fs[j].lines
  {
    var fs := NameFiles(directory, name, extension, ps);
    forall j | 0 <= j < |fs|
      ensures HeaderLines(header) <= fs[j].lines
    {
      PieceLines(ps[j]);
    }
  }

  /** Files named by their position have distinct names. */
  lemma NamedApart(name: string, extension: string, fs: seq<OutputFile>)
    requires Paths.PlainTemplate(name, extension)
    requires forall j | 0 <= j < |fs| :: fs[j].name == Paths.OutputName(name, extension, j + 1)
    ensures forall j, k | 0 <= j < k < |fs| :: fs[j].name != fs[k].name
  {
    forall j, k | 0 <= j < k < |fs|
      ensures fs[j].name != fs[k].name
    {
      Paths.OutputNamesDistinct(name, extension, j + 1, k + 1);
    }
  }

  /** With a positive chunk size, file `j + 1` holds the header (when kept)
      and then exactly the data rows `Span(data, c, j)`, the rows
      `[c * j, c * (j + 1))` cut short at the end; there are
      `max(1, ceil(n / c))` files. */
  lemma WriteChunksLayout(directory: string, name: string, extension: string,
                          header: Option<Row>, data: seq<Row>, chunkSize: int)
    requires Paths.PlainTemplate(name, extension) && chunkSize >= 1
    ensures var r := WriteChunks(directory, name, extension, header, data, chunkSize);
      && r.Ok?
      && |r.value| == (if |data| == 0 then 1 else (|data| - 1) / chunkSize + 1)
      && forall j | 0 <= j < |r.value| :: r.value[j].lines == HeaderLines(header) + Span(data, chunkSize, j)
  {
    var ps := Chunk(data, chunkSize, header);
    ChunkCount(data, chunkSize, header);
    PieceLinesLayout(data, chunkSize, header);
    NamedLines(directory, name, extension, ps);
  }

  /** The file for a piece holds that piece's lines. */
  lemma NamedLines(directory: string, name: string, extension: string, ps: seq<Piece>)
    requires Paths.PlainTemplate(name, extension)
    ensures var fs := NameFiles(directory, name, extension, ps);
      |fs| == |ps| && forall j | 0 <= j < |ps| :: fs[j].lines == ps[j].Lines()
  {
  }

  lemma PieceLinesLayout(data: seq<Row>, chunkSize: int, header: Option<Row>)
    requires chunkSize >= 1
    ensures var ps := Chunk(data, chunkSize, header);
      forall j | 0 <= j < |ps| :: ps[j].Lines() == HeaderLines(header) + Span(data, chunkSize, j)
  {
    var ps := Chunk(data, chunkSize, header);
    ChunkSlices(data, chunkSize, header);
    ChunkConserves(data, chunkSize, header);
    forall j | 0 <= j < |ps|
      ensures ps[j].Lines() == HeaderLines(header) + Span(data, chunkSize, j)
    {
      PieceLines(ps[j]);
    }
  }

  /** With a chunk size of zero or less every row rotates: file 1 holds
      only the header (or nothing), and file `j + 2` holds the header and
      the single row `j`. */
  lemma WriteChunksNonPositive(directory: string, name: string, extension: string,
                               header: Option<Row>, data: seq<Row>, chunkSize: int)
    requires Paths.PlainTemplate(name, extension) && chunkSize <= 0
    ensures var r := WriteChunks(directory, name, extension, header, data, chunkSize);
      && r.Ok?
      && |r.value| == |data| + 1
      && r.value[0].lines == HeaderLines(header)
      && forall j | 0 <= j < |data| :: r.value[j + 1].lines == HeaderLines(header) + [data[j]]
  {
    ChunkNonPositive(data, chunkSize, header);
    ChunkConserves(data, chunkSize, header);
  }
}
